=== FILE: README.md ===
# Pointer-block injection of the agent-skills CLI, in Dafny

The agent-skills command-line tool exists twice, as a Python port
(`python/agent_skills/cli.py`) and as a Node port (`node/bin/cli.js`).
It has two commands:

- `sync` copies the packaged *project-management-with-beads* skill to
  `<root>/.agent-skills/project-management-with-beads/SKILL.md`.
- `inject` keeps a managed block in `AGENTS.md` that points at that skill.
  The block is made of three lines: the opening mark, the pointer line and
  the closing mark.

This project models the core of both ports and proves properties about it.

- **Line endings** (`line_endings.dfy`): the file's line ending is `\r\n`
  exactly when the text contains `\r\n`. Otherwise, and for an empty file,
  it is `\n`.
- **The block and the append path** (`block.dfy`): the block is the three
  lines, each followed by the chosen line ending. If the file lacks either
  mark, the block is appended. A line ending goes first only when the text
  is non-empty and ends in neither `\n` nor `\r`.
- **The replace path** (`marker_pattern.dfy`): both regular expressions
  are modelled as explicit scans, with no general regex engine:
  - the opening mark;
  - a lazy run over a gap class up to the first closing mark it can reach;
  - a greedy run over a tail class.

  `Find` is the leftmost match. `ReplaceAll` is Python's `re.sub`, which
  replaces every match. `ReplaceFirst` is a JavaScript `replace` with a
  non-global regex. Both insert the replacement as it is: `re.sub` would
  expand backslash escapes in it and `replace` would expand `$` patterns,
  but the block holds neither `\` nor `$` (`RenderLiteral`). The Node regex's `m` flag changes nothing, because the
  pattern has no `^` or `$`. Node does not escape the marks, but they hold
  no regex metacharacter.
- **The two ports' patterns**:
  - Python compiles `START.*?END\s*` with `re.S`: any character in the gap
    and Python's `\s` as the tail. Python's `\s` and JavaScript's `\s`
    are written out character by character and checked against the
    definitions of `str.isspace()` and of ECMAScript.
  - Node writes `[\s\S]*?` and `\s*` inside a template literal. There `\s`
    and `\S` are not escapes, so the regex it compiles is
    `START[sS]*?ENDs*`.
  - Both are modelled as written (`NodeInject`). The evidently intended
    Node pattern, `START[\s\S]*?END\s*`, is modelled too
    (`NodeInjectIntended`); see Findings.
- **Proofs** (`upsert.dfy`, `block_scan.dfy`, `stray.dfy`, `rewrite.dfy`,
  `narrow_gap.dfy`, `inject.dfy`):
  - both marks and the line ending survive every run;
  - the append path;
  - the rewrite of an existing block, which also drops the whitespace
    right after it;
  - idempotence;
  - the stray opening mark that a second run swallows;
  - the Node pattern that never matches a block the tool wrote, and
    that is therefore not idempotent on some files holding both marks.

  The proof files are split by proof concern rather than by source file:
  `block_scan.dfy` holds where matches begin and end around a framed
  block, `stray.dfy` the stray opening mark, `narrow_gap.dfy` the Node
  pattern's gap that cannot cross a line ending, and `rewrite.dfy` the
  rewrite of an existing block. All of them are about the same few lines
  of each port's `inject`.
- **Root walk** (`paths.dfy`, `git_root.dfy`):
  - Python tries `start` and then `start.parents`, and falls back to
    `start` exactly as given.
  - Node walks up from `path.resolve(start)` through `dirname` until the
    root, which is its own parent, and falls back to the resolved start.
  - Which directories hold `.git` is an input set.
- **Atomic write and `sync`** (`file_system.dfy`, `atomic_write.dfy`,
  `sync.dfy`):
  - The file system is a map from paths to files and directories.
  - `mkdir -p`, writing a file and an atomic rename each fail where the
    system call would fail on a file/directory clash.
  - The atomic write is the trace of states after each step.
  - `sync` is the atomic write of the packaged bytes, which are an input,
    below the root.

## Model

| member | source | states |
|---|---|---|
| LineEndings.DetectEol | python/agent_skills/cli.py:48-49 | the line ending is `\r\n` exactly when some index of the text holds `\r` followed by `\n`, and `\n` otherwise; Node's `detectEol` follows the same rule |
| LineEndings.ChooseEol | python/agent_skills/cli.py:73 | empty text gets `\n`; other text gets the detected line ending; the choice is always `\n` or `\r\n`, as in `cmdInject` |
| Markers.SkillShape | python/agent_skills/cli.py:15-17 | each mark opens with its only `<`, holds no `\r` and ends with `>`; the marks differ at a common index; the pointer line holds neither `<` nor `\r` |
| Block.Render | python/agent_skills/cli.py:75 | the block opens with the opening mark and ends with the closing mark and the line ending; line-ending detection on the block gives back the line ending it was rendered with |
| Block.RenderLiteral | python/agent_skills/cli.py:79 | the block holds neither `\` nor `$`, so `re.sub` finds no escape or group reference in it and JavaScript's `replace` no `$` pattern (node/bin/cli.js:57): both insert it as it is |
| Block.FramedLayout | python/agent_skills/cli.py:75 | the block opens with the opening mark followed by the line ending, holds the closing mark after the pointer line, ends with the line ending, and has `<` only where a mark begins |
| Block.FramedCrlf | node/bin/cli.js:53 | a block contains `\r\n` exactly when it was framed with `\r\n` |
| Block.Append | python/agent_skills/cli.py:80-83 | the old text is an unchanged prefix and the block the suffix; exactly one line ending separates them when the text is non-empty and ends in neither `\n` nor `\r`, and nothing does otherwise; the block always starts a line; `cmdInject` appends the same way |
| Block.EolAddsNoMark | python/agent_skills/cli.py:81-82 | the separator added before the block neither creates nor removes a mark |
| MarkerPattern.PythonSpaceIsUnicode | python/agent_skills/cli.py:78 | the tail class of Python's `\s` holds exactly the characters `str.isspace()` accepts: the Unicode space separators and the characters of bidirectional class B, S or WS |
| MarkerPattern.JsSpaceIsEcma | node/bin/cli.js:56 | the tail class of JavaScript's `\s` holds exactly ECMAScript's WhiteSpace (tab, vertical tab, form feed, byte order mark, space separators) and LineTerminator characters |
| MarkerPattern.SpaceClassesDiffer | node/bin/cli.js:56 | the two ports' `\s` classes differ only in `\x1c`–`\x1f` and `\x85`, which only Python counts, and the byte order mark, which only JavaScript counts |
| MarkerPattern.LazyScan | python/agent_skills/cli.py:78 | the lazy gap stops at the first closing mark it can reach across gap characters; when it fails, every later closing mark lies beyond a character outside the gap class |
| MarkerPattern.GreedyRun | python/agent_skills/cli.py:78 | the trailing `\s*` run takes every tail character up to the first one outside the class |
| MarkerPattern.MatchLen | node/bin/cli.js:56 | a match begins with the opening mark, covers both marks and is followed by a character outside the tail class or by the end of the text |
| MarkerPattern.Find | python/agent_skills/cli.py:79 | the search answers the leftmost position where the pattern matches; no position before it matches, and no position matches when it answers none |
| MarkerPattern.ReplaceAll | python/agent_skills/cli.py:79 | with no match the text is unchanged; otherwise the text before the leftmost match is kept and the replacement follows it, inserted as it is, which is what `re.sub` does with a replacement free of `\` |
| MarkerPattern.ReplaceFirst | node/bin/cli.js:57 | with no match the text is unchanged; otherwise the text before the leftmost match is kept, the replacement follows as it is, then the text after the match, and nothing else, which is what `replace` does with a replacement free of `$` |
| Upsert.UpsertAll | python/agent_skills/cli.py:73-83 | with both marks present, the first match is replaced by the block and the text before it kept, and a text with no match is kept whole; with a mark missing, the old text is a prefix of the result and the block its suffix |
| Upsert.UpsertFirst | node/bin/cli.js:52-61 | the same promises for the upsert that rewrites only the leftmost match |
| Upsert.UpsertKeeps | python/agent_skills/cli.py:77-83 | after a run of either upsert, with any pattern over marks of the block's shape, both marks are present and the detected line ending is the one chosen for the old text |
| Upsert.UpsertAllIdempotent | python/agent_skills/cli.py:77-83 | the substituting upsert with any dot-all pattern is idempotent on every text in which an opening mark implies a closing mark |
| Upsert.UpsertFirstIdempotent | node/bin/cli.js:55-61 | the same for the upsert that rewrites only the leftmost match |
| Upsert.AppendedBlockStable | python/agent_skills/cli.py:79-83 | a block appended to text without an opening mark is matched exactly, so either substitution leaves it as it is |
| BlockScan.BlockFound | python/agent_skills/cli.py:78 | the leftmost match of a pattern whose gap is any character and whose tail takes line endings, in text with a framed block after text without an opening mark starts at the block and covers the block and the whole run of tail characters after it, whatever the block's line ending and whatever its body as long as the body holds no closing mark |
| Rewrite.ReplaceBlockAll | python/agent_skills/cli.py:78-79 | `re.sub` on text with a framed block after text without an opening mark, whatever the block's line ending and whatever its body as long as the body holds no closing mark, swaps the block and the run of tail characters after it for the replacement, inserted as it is, keeps the text before it, and goes on with the text after the run |
| Rewrite.ReplaceBlockFirst | node/bin/cli.js:56-57 | the non-global replace swaps that block and the run of tail characters after it for the replacement, inserted as it is, and keeps everything else: the text before the block and the text after the run |
| Rewrite.NoCloseNoMatch | python/agent_skills/cli.py:78 | whatever the gap and tail classes, no position matches when no closing mark begins after the end of an opening mark |
| StrayMark.StrayRerun | python/agent_skills/cli.py:77-83 | on text with an opening mark and no closing mark, the first run appends the block and the second cuts the text at the first opening mark and puts the block there |
| NarrowGap.NoLineMatch | node/bin/cli.js:56 | with a gap class that holds neither `\n` nor `\r`, text where every opening mark is directly followed by a line ending has no match |
| NarrowGap.BlockOpensLine | node/bin/cli.js:53 | a framed block between texts without opening marks leaves only its own opening mark, and that mark ends its line |
| Inject.PythonInject | python/agent_skills/cli.py:67-85 | `inject` leaves both marks present and keeps the line ending chosen for the old text; when a mark is missing, the result is the append path with that line ending |
| Inject.NodeInject | node/bin/cli.js:45-62 | the same guarantees for `cmdInject` with the pattern it compiles |
| Inject.NodeInjectIntended | node/bin/cli.js:55-57 | the same guarantees for `cmdInject` with the pattern `START[\s\S]*?END\s*` |
| Inject.EmptyGetsBlock | python/agent_skills/cli.py:69-75 | a missing or empty agents file becomes exactly the block with `\n` line endings, in every port |
| Inject.PythonIdempotent | python/agent_skills/cli.py:69-85 | a second Python `inject` leaves the file as the first left it, whenever an opening mark comes with a closing mark |
| Inject.NodeIntendedIdempotent | node/bin/cli.js:45-62 | the same for Node with the intended pattern |
| Inject.NodeFreshIdempotent | node/bin/cli.js:45-62 | starting from a file without an opening mark, such as a missing file, a second Node `inject` as written leaves the file as the first left it |
| Inject.NodeNotIdempotent | node/bin/cli.js:55-57 | on a file holding an opening mark directly followed by a closing mark, twice, the first Node run as written turns the first pair into the block and the second, unable to cross the line ending after the block's opening mark, turns the leftover pair into a second block, so Node as written is not idempotent on a file holding both marks; the intended regex is idempotent on the same file |
| Inject.NoEndAfterStartUnchanged | python/agent_skills/cli.py:77-79 | when both marks occur but no closing mark follows an opening mark, every port leaves the text unchanged |
| Inject.PythonSwallowsStray | python/agent_skills/cli.py:77-83 | with an opening mark but no closing mark, the second Python run replaces everything from the first opening mark by the block, so the second result differs from the first |
| Inject.NodeIntendedSwallowsStray | node/bin/cli.js:55-60 | the same for Node with the intended pattern |
| Inject.PythonRewritesBlock | python/agent_skills/cli.py:77-79 | an existing block that ends with its line ending, whatever its line ending and whatever its body as long as the body holds no closing mark, is replaced by the current block in the file's line ending; the whitespace right after it is dropped, and the rest of the text is kept, when no other opening mark occurs |
| Inject.NodeIntendedRewritesBlock | node/bin/cli.js:55-57 | the intended pattern replaces the first existing block that ends with its line ending in the same way, dropping the whitespace after it and keeping everything else, whatever follows |
| Inject.PythonDropsSpaceAfterBlock | python/agent_skills/cli.py:78-79 | a run on a file whose block is already current still changes the file when whitespace follows the block: blank lines after the block are removed |
| Inject.NodeIntendedDropsSpaceAfterBlock | node/bin/cli.js:56-57 | the same for Node with the intended pattern |
| Inject.NodeKeepsStaleBlock | node/bin/cli.js:55-57 | with the pattern Node compiles, a file holding one block, however stale, between texts without opening marks is left unchanged |
| Inject.NodeMissesStaleBlock | node/bin/cli.js:56 | a block with an empty pointer line differs from the current block, yet Node as written keeps it |
| Inject.IntendedRefreshesStaleBlock | python/agent_skills/cli.py:78-79 | the Python port and the intended Node pattern both turn that stale block, which ends the file with its line ending, into the current block |
| GitRoot.Nearest | python/agent_skills/cli.py:22-24 | the walk from a directory up to a lower bound answers the nearest directory holding `.git`, with none nearer, or none when no directory in range holds it |
| GitRoot.PyGitRoot | python/agent_skills/cli.py:20-25 | `_git_root` answers the first of `start` and its parents that holds `.git`, with no nearer candidate holding it; it answers `start`, exactly as given, when no candidate does |
| GitRoot.NodeGitRoot | node/bin/cli.js:16-24 | `gitRoot` answers the nearest ancestor of the resolved start that holds `.git`, or the resolved start when none does; the loop ends because every step moves to a shorter parent or stops at the root |
| GitRoot.NodeRoot | node/bin/cli.js:17-22 | the recursive reference for `gitRoot`: the nearest prefix of the resolved start in the set, or the resolved start |
| GitRoot.PyGitRootIdempotent | python/agent_skills/cli.py:20-25 | walking again from the root `_git_root` found gives the same root |
| GitRoot.NodeRootIdempotent | node/bin/cli.js:16-24 | walking again from the root `gitRoot` found gives the same root |
| GitRoot.RootsAgreeOnAbsolute | python/agent_skills/cli.py:22 | from an absolute start both ports name the same directory |
| GitRoot.RelativeStopsAtCwd | python/agent_skills/cli.py:22 | from a relative start, a `.git` found only above the working directory is found by Node and not by Python |
| FileSystem.MakeDirs | python/agent_skills/cli.py:41 | `mkdir -p` succeeds exactly when no ancestor is a file; it then makes every ancestor a directory, keeps every existing entry, and adds nothing else |
| FileSystem.WriteFile | node/bin/cli.js:29 | writing succeeds exactly when the parent is a directory and the path is not; the path then holds the data and nothing else changes |
| FileSystem.Rename | python/agent_skills/cli.py:45 | the rename succeeds exactly when the source is a file and the destination is not a directory but has one as parent; the destination then holds the source's entry, the source is gone, and nothing else changes |
| FileSystem.TmpPath | node/bin/cli.js:28 | the temporary file sits beside the target under a different name |
| AtomicWrite.Steps | python/agent_skills/cli.py:40-45 | the write is the trace of file-system states: the initial state, then one more for each of `mkdir`, the write of the temporary file and the rename, stopping at the first step that fails; `writeAtomic` (node/bin/cli.js:26-31) takes the same three steps |
| AtomicWrite.StepsSucceed | python/agent_skills/cli.py:40-45 | all three steps succeed exactly when no ancestor of the target's directory is a file and neither the target nor `<target>.tmp` is a directory |
| AtomicWrite.StepsOldOrNew | python/agent_skills/cli.py:40-45 | in every state before the rename the target is as it was; after the rename it holds exactly the data and the temporary file is gone |
| AtomicWrite.StepsFrame | node/bin/cli.js:26-31 | after all steps every other existing path is unchanged, and the only new paths are the target and the directories above it |
| AtomicWrite.WriteAtomic | node/bin/cli.js:26-31 | the whole write succeeds exactly when the target is writable; the target then holds exactly the data, `.tmp` is gone, the directories exist, and nothing else changes |
| AtomicWrite.WriteAtomicTwice | python/agent_skills/cli.py:40-45 | writing the same data again leaves the file system as the first write left it |
| Sync.SkillTarget | python/agent_skills/cli.py:56 | the skill is written to `.agent-skills/project-management-with-beads/SKILL.md` below the root |
| Sync.GitDirsIff | python/agent_skills/cli.py:23 | a directory counts as a repository root exactly when it holds an entry named `.git`, a file or a directory |
| Sync.StartPath | python/agent_skills/cli.py:55 | the walk starts at the `repo` option when given, and otherwise at an absolute path naming the working directory, as the Node port's fallback to `process.cwd()` does (node/bin/cli.js:38) |
| Sync.PySync | python/agent_skills/cli.py:52-57 | `sync` writes the packaged bytes, byte for byte, to the skill path below `_git_root`'s answer, and leaves every other existing path as it was |
| Sync.NodeSync | node/bin/cli.js:37-42 | `cmdSync` does the same below `gitRoot`'s answer |
| Sync.SyncPortsAgree | python/agent_skills/cli.py:55 | without a `repo` option, or with an absolute one, both ports produce the same file system |

## Left out

- Reading and writing `AGENTS.md`: `inject` is modelled on the file's
  text, with a missing file as the empty string. The final write of
  `inject` is direct and not atomic, so the atomicity guarantee is not
  attached to it.
- Text-mode effects of reading and writing are not modelled. Python's
  `read_text` and `write_text` translate newlines, which in practice keeps
  `\r\n` from reaching `_detect_eol`. Node decodes the file as UTF-8. Both
  lie outside string logic.
- Where the packaged skill is loaded from (`_skill_bytes`, `skillPath`):
  the bytes are an input of `sync`.
- Command-line wiring, help text, the `version` command and the printed
  messages: these are glue to typer and yargs.
- Path syntax: a path is a list of components. `.` and `..` components,
  symbolic links and Windows separators are not modelled. `path.resolve`
  is modelled as joining a relative path to the working directory.
- File-system failures other than the clash between a file and a
  directory: permissions, full disks, cross-device renames and crashes
  halfway through a step.
- Concurrent runs racing on the same `.tmp` path: the code has no
  locking.
- MarkerPattern.ReplaceAll: inserts the replacement as it is. Python's
  `re.sub` expands backslash escapes and group references in it, and
  raises an error for a reference to a missing group; that never happens
  here, because the only replacement is the block, which holds no `\`
  (Block.RenderLiteral).
- MarkerPattern.ReplaceFirst: inserts the replacement as it is.
  JavaScript's `replace` expands `$&`, `$1`, `$$` and the other `$`
  patterns in it; the block holds no `$` (Block.RenderLiteral).
- Inject.PythonRewritesBlock: stated for one block that no other
  opening mark follows. With a later block, `re.sub` rewrites that one
  too; Rewrite.ReplaceBlockAll states that general step. It is also
  stated only for a block that ends with its line ending: a block whose
  closing mark ends the file without a final line ending is not covered.
- Inject.NodeIntendedRewritesBlock: stated only for a block that ends
  with its line ending, like Inject.PythonRewritesBlock.
- Inject.PythonIdempotent: requires that an opening mark comes with a
  closing mark. Without one, a second run is not idempotent, which
  Inject.PythonSwallowsStray proves.
- Inject.NodeFreshIdempotent: stated only for a file without an opening
  mark. With both marks present, Node as written need not be idempotent:
  Inject.NodeNotIdempotent shows it for two bare mark pairs.
- Inject.NodeKeepsStaleBlock: stated for texts without an opening mark
  outside the block and for a body without `<`. Text that the letters `s`
  and `S` join to a closing mark can still be matched.

## Findings

| source | as written | input that shows it | evidently intended | confidence | as-written member | corrected member |
|---|---|---|---|---|---|---|
| node/bin/cli.js:56 | the pattern is built in a template literal, where `\s` and `\S` lose their backslash, so the regex is `START[sS]*?ENDs*`: only the letters `s` and `S` may stand between the marks | an `AGENTS.md` holding a block with an out-of-date pointer line, such as the opening mark, `\n`, an empty line, `\n`, the closing mark, `\n`; `cmdInject` leaves it unchanged; and a file holding the opening mark directly followed by the closing mark, twice, which a second `cmdInject` changes again | `START[\s\S]*?END\s*`, which replaces the block with the current one, as the Python port does, and leaves the second file alone on a second run | high; not executed | Inject.NodeInject, Inject.NodeMissesStaleBlock, Inject.NodeNotIdempotent | Inject.NodeInjectIntended, Inject.IntendedRefreshesStaleBlock, Inject.NodeIntendedIdempotent |

=== FILE: atomic_write.dfy ===
/**
 * The atomic write (`_write_atomic`, `writeAtomic`): create the target's
 * directory, write the data to `<target>.tmp`, then rename that file over
 * the target. The target holds its old entry until the rename and the new
 * data after it, never anything in between.
 */
module AtomicWrite {
  import opened Wrappers
  import opened Paths
  import opened FileSystem

  /** The three steps all succeed: no ancestor of the directory is a file and neither file path is a directory. */
  predicate Writable(fs: FS, target: Dir)
    requires target != []
  {
    && (forall n :: 0 < n <= |Dirname(target)| ==> !IsFile(fs, Dirname(target)[..n]))
    && !IsDir(fs, TmpPath(target))
    && !IsDir(fs, target)
  }

  /**
   * The states the file system passes through: the initial one, then one
   * more after each step that succeeds, so four when all three do.
   */
  function Steps(fs: FS, target: Dir, data: Bytes): (trace: seq<FS>)
    requires target != []
    ensures 1 <= |trace| <= 4 && trace[0] == fs
  {
    match MakeDirs(fs, Dirname(target))
    case None => [fs]
    case Some(fs1) =>
      match WriteFile(fs1, TmpPath(target), data)
      case None => [fs, fs1]
      case Some(fs2) =>
        match Rename(fs2, TmpPath(target), target)
        case None => [fs, fs1, fs2]
        case Some(fs3) => [fs, fs1, fs2, fs3]
  }

  /** Creating the directory touches neither the target nor the temporary file, and leaves the directory in place. */
  lemma {:induction false} DirsStep(fs: FS, target: Dir)
    requires target != [] && MakeDirs(fs, Dirname(target)).Some?
    ensures var fs1 := MakeDirs(fs, Dirname(target)).value;
      && Lookup(fs1, target) == Lookup(fs, target)
      && Lookup(fs1, TmpPath(target)) == Lookup(fs, TmpPath(target))
      && IsDir(fs1, Dirname(target))
  {
    var dir := Dirname(target);
    var fs1 := MakeDirs(fs, dir).value;
    if dir != [] {
      assert dir[..|dir|] == dir;
    }
  }

  /** All three steps succeed exactly when the target is writable. */
  lemma {:induction false} StepsSucceed(fs: FS, target: Dir, data: Bytes)
    requires target != []
    ensures |Steps(fs, target, data)| == 4 <==> Writable(fs, target)
  {
    var dir := Dirname(target);
    var tmp := TmpPath(target);
    if MakeDirs(fs, dir).Some? {
      DirsStep(fs, target);
      var fs1 := MakeDirs(fs, dir).value;
      assert IsDir(fs1, tmp) == IsDir(fs, tmp) && IsDir(fs1, target) == IsDir(fs, target);
      if WriteFile(fs1, tmp, data).Some? {
        var fs2 := WriteFile(fs1, tmp, data).value;
        assert Lookup(fs2, target) == Lookup(fs1, target) && IsDir(fs2, dir);
      }
    }
  }

  /** Before the rename the target is as it was; after it the target holds `data` and the temporary file is gone. */
  lemma {:induction false} StepsOldOrNew(fs: FS, target: Dir, data: Bytes)
    requires target != []
    ensures var trace := Steps(fs, target, data);
      && (forall i :: 0 <= i < |trace| && i < 3 ==> Lookup(trace[i], target) == Lookup(fs, target))
      && (|trace| == 4 ==> Lookup(trace[3], target) == Some(File(data)) && TmpPath(target) !in trace[3])
  {
    if MakeDirs(fs, Dirname(target)).Some? {
      DirsStep(fs, target);
    }
  }

  /**
   * After all three steps every other existing path is as it was, and the
   * only new paths are the target and the directories above it, which exist.
   */
  lemma {:induction false} StepsFrame(fs: FS, target: Dir, data: Bytes)
    requires target != [] && |Steps(fs, target, data)| == 4
    ensures var r := Steps(fs, target, data)[3];
      && (forall n :: 0 < n <= |Dirname(target)| ==> IsDir(r, Dirname(target)[..n]))
      && (forall p :: p in fs && p != target && p != TmpPath(target) ==> p in r && r[p] == fs[p])
      && (forall p :: p in r && p !in fs ==> p == target || (AncestorOf(p, Dirname(target)) && r[p] == Directory))
  {
    var dir := Dirname(target);
    var tmp := TmpPath(target);
    var fs1 := MakeDirs(fs, dir).value;
    var fs2 := WriteFile(fs1, tmp, data).value;
    var fs3 := Rename(fs2, tmp, target).value;
    assert Steps(fs, target, data)[3] == fs3;
    forall n | 0 < n <= |dir|
      ensures IsDir(fs3, dir[..n])
    {
      assert IsDir(fs1, dir[..n]) && |dir[..n]| < |target|;
      assert Lookup(fs3, dir[..n]) == Lookup(fs2, dir[..n]) == Lookup(fs1, dir[..n]);
    }
    forall p | p in fs && p != target && p != tmp
      ensures p in fs3 && fs3[p] == fs[p]
    {
      assert Lookup(fs3, p) == Lookup(fs2, p) == Lookup(fs1, p) == Lookup(fs, p);
    }
    forall p | p in fs3 && p !in fs
      ensures p == target || (AncestorOf(p, dir) && fs3[p] == Directory)
    {
      if p != target {
        assert Lookup(fs3, p) == Lookup(fs2, p) == Lookup(fs1, p);
      }
    }
  }

  /**
   * The whole write: it succeeds exactly when the target is writable, and
   * then the target holds exactly `data`, the temporary file is gone, the
   * directories above the target exist, every other existing path is as
   * it was, and the only new paths are the target and those directories.
   */
  function WriteAtomic(fs: FS, target: Dir, data: Bytes): (r: Option<FS>)
    requires target != []
    ensures r.Some? <==> Writable(fs, target)
    ensures r.Some? ==> Lookup(r.value, target) == Some(File(data)) && TmpPath(target) !in r.value
    ensures r.Some? ==> forall n :: 0 < n <= |Dirname(target)| ==> IsDir(r.value, Dirname(target)[..n])
    ensures r.Some? ==> forall p :: p in fs && p != target && p != TmpPath(target) ==> p in r.value && r.value[p] == fs[p]
    ensures r.Some? ==> forall p :: p in r.value && p !in fs ==>
      p == target || (AncestorOf(p, Dirname(target)) && r.value[p] == Directory)
  {
    var trace := Steps(fs, target, data);
    StepsSucceed(fs, target, data);
    StepsOldOrNew(fs, target, data);
    if |trace| == 4 then
      StepsFrame(fs, target, data);
      Some(trace[3])
    else None
  }

  /** Writing the same data again changes nothing: the second write lands on the first one's result. */
  lemma {:induction false} WriteAtomicTwice(fs: FS, target: Dir, data: Bytes)
    requires target != [] && WriteAtomic(fs, target, data).Some?
    ensures var once := WriteAtomic(fs, target, data).value;
      WriteAtomic(once, target, data) == Some(once)
  {
    var once := WriteAtomic(fs, target, data).value;
    var dir := Dirname(target);
    assert Writable(once, target) by {
      forall n | 0 < n <= |dir|
        ensures !IsFile(once, dir[..n])
      {
        assert IsDir(once, dir[..n]);
      }
    }
    var twice := WriteAtomic(once, target, data).value;
    assert forall p :: p in twice ==> p in once;
    forall p | p in once
      ensures p in twice && twice[p] == once[p]
    {
      if p == target {
        assert Lookup(twice, p) == Lookup(once, p);
      }
    }
    assert twice == once;
  }
}

=== FILE: block.dfy ===
/**
 * The managed block and the append path of the injector: the block is
 * the opening mark, the pointer line and the closing mark, each followed
 * by the chosen line ending; when the document has no complete block the
 * block is appended, starting on a line of its own.
 *
 * The layout lemmas are stated for any mark pair of the right shape, so
 * that proofs about the scanner never unfold the skill's literal marks.
 */
module Block {
  import opened Strings
  import opened Markers
  import opened LineEndings

  /** A block with an arbitrary body line between the marks. */
  function Framed(m: Marks, eol: string, body: string): string
  {
    m.open + eol + body + eol + m.close + eol
  }

  /**
   * The block the injector writes: the pointer line framed by the skill's
   * marks. Line-ending detection on the block gives back the line ending
   * it was rendered with.
   */
  function Render(eol: string): (r: string)
    requires ValidEol(eol)
    ensures ChooseEol(r) == eol
    ensures StartsAt(r, StartMark, 0)
    ensures StartsAt(r, EndMark, |r| - |EndMark| - |eol|)
    ensures |eol| <= |r| && r[|r| - |eol|..] == eol
  {
    SkillShape();
    FramedCrlf(SkillMarks, eol, PointerLine);
    FramedStart(SkillMarks, eol, PointerLine);
    FramedEnd(SkillMarks, eol, PointerLine);
    Framed(SkillMarks, eol, PointerLine)
  }

  /** A character that is not a line-ending character and is missing from the marks and the body is missing from the block. */
  lemma {:induction false} FramedLacks(m: Marks, eol: string, body: string, c: char)
    requires ValidEol(eol) && c != '\n' && c != '\r'
    requires LacksFrom(m.open, c, 0) && LacksFrom(m.close, c, 0) && LacksFrom(body, c, 0)
    ensures LacksFrom(Framed(m, eol, body), c, 0)
  {
    assert LacksFrom(eol, c, 0);
    LacksConcat(m.open, eol, c, 0);
    LacksConcat(m.open + eol, body, c, 0);
    LacksConcat(m.open + eol + body, eol, c, 0);
    LacksConcat(m.open + eol + body + eol, m.close, c, 0);
    LacksConcat(m.open + eol + body + eol + m.close, eol, c, 0);
  }

  /**
   * The rendered block holds neither `\` nor `$`. Python's `re.sub`
   * expands backslash escapes and group references in its replacement,
   * and JavaScript's `replace` expands `$` patterns; neither finds
   * anything to expand in the block, so both insert it as it is.
   */
  lemma {:induction false} RenderLiteral(eol: string)
    requires ValidEol(eol)
    ensures LacksFrom(Render(eol), '\\', 0) && LacksFrom(Render(eol), '$', 0)
  {
    assert LacksFrom("<!-- AGENT-SKILL:START ", '\\', 0) && LacksFrom("<!-- AGENT-SKILL:END ", '\\', 0);
    assert LacksFrom(SkillName, '\\', 0) && LacksFrom(" -->", '\\', 0);
    assert LacksFrom("Use skill at: .agent-skills/", '\\', 0) && LacksFrom("/" + SkillFileName, '\\', 0);
    SkillTextLacks('\\');
    assert LacksFrom("<!-- AGENT-SKILL:START ", '$', 0) && LacksFrom("<!-- AGENT-SKILL:END ", '$', 0);
    assert LacksFrom(SkillName, '$', 0) && LacksFrom(" -->", '$', 0);
    assert LacksFrom("Use skill at: .agent-skills/", '$', 0) && LacksFrom("/" + SkillFileName, '$', 0);
    SkillTextLacks('$');
    FramedLacks(SkillMarks, eol, PointerLine, '\\');
    FramedLacks(SkillMarks, eol, PointerLine, '$');
  }

  /** Where the closing mark begins inside a framed block. */
  function EndOffset(m: Marks, eol: string, body: string): nat
  {
    |m.open| + |eol| + |body| + |eol|
  }

  /** A framed block holds `<` only where its two marks begin. */
  lemma {:induction false} FramedLt(m: Marks, eol: string, body: string)
    requires MarkShape(m.open) && MarkShape(m.close)
    requires ValidEol(eol) && LacksFrom(body, '<', 0)
    ensures Framed(m, eol, body)[0] == '<'
    ensures forall k :: 0 < k < |Framed(m, eol, body)| && k != EndOffset(m, eol, body) ==> Framed(m, eol, body)[k] != '<'
  {
    var head := m.open + eol + body + eol;
    var tail := m.close + eol;
    assert Framed(m, eol, body) == head + tail;
    assert LacksFrom(eol, '<', 0);
    LacksConcat(m.open, eol, '<', 1);
    LacksConcat(m.open + eol, body, '<', 1);
    LacksConcat(m.open + eol + body, eol, '<', 1);
    LacksConcat(m.close, eol, '<', 1);
    forall k | 0 < k < |head + tail| && k != |head|
      ensures (head + tail)[k] != '<'
    {
      if k >= |head| {
        assert (head + tail)[k] == tail[k - |head|];
      }
    }
  }

  /** A framed block opens with the opening mark, followed by a line-ending character. */
  lemma {:induction false} FramedStart(m: Marks, eol: string, body: string)
    requires ValidEol(eol)
    ensures StartsAt(Framed(m, eol, body), m.open, 0)
    ensures Framed(m, eol, body)[|m.open|] == eol[0]
  {
    assert Framed(m, eol, body)[..|m.open|] == m.open;
  }

  /** A framed block opens with `<`, the first character of its opening mark. */
  lemma {:induction false} FramedHead(m: Marks, eol: string, body: string)
    requires MarkShape(m.open)
    ensures |Framed(m, eol, body)| > 0 && Framed(m, eol, body)[0] == '<'
  {
    assert Framed(m, eol, body)[0] == m.open[0];
  }

  /** The closing mark sits at `EndOffset`, followed only by the line ending. */
  lemma {:induction false} FramedEnd(m: Marks, eol: string, body: string)
    ensures StartsAt(Framed(m, eol, body), m.close, EndOffset(m, eol, body))
    ensures |Framed(m, eol, body)| == EndOffset(m, eol, body) + |m.close| + |eol|
    ensures Framed(m, eol, body)[EndOffset(m, eol, body) + |m.close|..] == eol
  {
    var head := m.open + eol + body + eol;
    assert Framed(m, eol, body) == head + (m.close + eol);
    assert (head + (m.close + eol))[|head|..|head| + |m.close|] == m.close;
  }

  /**
   * The layout every proof about re-injection uses: a framed block opens
   * with the opening mark, holds the closing mark at `EndOffset`, closes
   * with the line ending, follows the opening mark with a line-ending
   * character, and contains `<` only where the two marks begin.
   */
  lemma {:induction false} FramedLayout(m: Marks, eol: string, body: string)
    requires WellShaped(m) && ValidEol(eol) && LacksFrom(body, '<', 0)
    ensures StartsAt(Framed(m, eol, body), m.open, 0)
    ensures StartsAt(Framed(m, eol, body), m.close, EndOffset(m, eol, body))
    ensures |Framed(m, eol, body)| == EndOffset(m, eol, body) + |m.close| + |eol|
    ensures Framed(m, eol, body)[EndOffset(m, eol, body) + |m.close|..] == eol
    ensures Framed(m, eol, body)[|m.open|] == eol[0]
    ensures Framed(m, eol, body)[0] == '<'
    ensures Framed(m, eol, body)[|Framed(m, eol, body)| - 1] == '\n'
    ensures forall k :: 0 < k < |Framed(m, eol, body)| && k != EndOffset(m, eol, body) ==> Framed(m, eol, body)[k] != '<'
  {
    FramedStart(m, eol, body);
    FramedEnd(m, eol, body);
    FramedLt(m, eol, body);
    var f := Framed(m, eol, body);
    assert f[|f| - 1] == f[EndOffset(m, eol, body) + |m.close|..][|eol| - 1];
  }

  /** A framed block contains a CRLF exactly when it is framed with CRLF. */
  lemma {:induction false} FramedCrlf(m: Marks, eol: string, body: string)
    requires MarkShape(m.open) && MarkShape(m.close)
    requires ValidEol(eol) && LacksFrom(body, '\r', 0)
    ensures HasCrlf(Framed(m, eol, body)) <==> eol == CRLF
  {
    var b := Framed(m, eol, body);
    if eol == CRLF {
      assert CrlfAt(b, |m.open|);
    } else {
      assert LacksFrom(eol, '\r', 0);
      LacksConcat(m.open, eol, '\r', 0);
      LacksConcat(m.open + eol, body, '\r', 0);
      LacksConcat(m.open + eol + body, eol, '\r', 0);
      LacksConcat(m.open + eol + body + eol, m.close, '\r', 0);
      LacksConcat(m.open + eol + body + eol + m.close, eol, '\r', 0);
      NoCrNoCrlf(b);
    }
  }

  /** A non-empty document that does not end in `\n` or `\r` needs a line ending first. */
  predicate NeedsSeparator(text: string)
  {
    text != "" && !EndsWithChar(text, '\n') && !EndsWithChar(text, '\r')
  }

  /** What precedes an appended block: the text, plus `eol` when it needs a separator. */
  function Lead(text: string, eol: string): string
  {
    if NeedsSeparator(text) then text + eol else text
  }

  /**
   * The append path: the document is kept as an unchanged prefix, the
   * block is the suffix, exactly one line ending separates them when the
   * document did not already end a line, and nothing otherwise.
   */
  function Append(text: string, eol: string, block: string): (r: string)
    requires ValidEol(eol)
    ensures |text| <= |r| && r[..|text|] == text
    ensures |block| <= |r| && r[|r| - |block|..] == block
    ensures NeedsSeparator(text) ==> |r| == |text| + |eol| + |block| && r[|text|..|text| + |eol|] == eol
    ensures !NeedsSeparator(text) ==> |r| == |text| + |block|
    ensures var before := r[..|r| - |block|];
      before == "" || EndsWithChar(before, '\n') || EndsWithChar(before, '\r')
  {
    var lead := Lead(text, eol);
    assert (lead + block)[..|lead|] == lead;
    lead + block
  }

  /**
   * A line ending added after a document cannot complete a mark, because
   * every mark ends with `>`.
   */
  lemma {:induction false} EolLeadOccurrence(text: string, eol: string, m: string, i: nat)
    requires ValidEol(eol) && MarkShape(m)
    ensures StartsAt(text + eol, m, i) ==> StartsAt(text, m, i)
  {
    if StartsAt(text + eol, m, i) {
      assert (text + eol)[i..i + |m|][|m| - 1] == (text + eol)[i + |m| - 1] == '>';
      StartsAtLeft(text, eol, m, i);
    }
  }

  /** Appending a line ending neither adds nor removes a mark. */
  lemma {:induction false} EolAddsNoMark(text: string, eol: string, m: string)
    requires ValidEol(eol) && MarkShape(m)
    ensures Contains(text + eol, m) <==> Contains(text, m)
  {
    ContainsIff(text + eol, m);
    ContainsIff(text, m);
    if Contains(text + eol, m) {
      var j: nat :| StartsAt(text + eol, m, j);
      EolLeadOccurrence(text, eol, m, j);
    }
    if Contains(text, m) {
      var j: nat :| StartsAt(text, m, j);
      StartsAtLeft(text, eol, m, j);
    }
  }
}

=== FILE: block_scan.dfy ===
/**
 * How the block patterns behave on text that contains a framed block:
 * where a match can begin, where the lazy scan for the closing mark stops,
 * and how far the trailing run reaches. These facts rest on the marks'
 * shape: each opens with the only `<` it contains.
 */
module BlockScan {
  import opened Wrappers
  import opened Strings
  import opened Markers
  import opened LineEndings
  import opened Block
  import opened MarkerPattern

  /** No pattern matches inside an open-mark-free prefix of `pre + b` when `b` opens with `<`. */
  lemma {:induction false} StartFreePrefix(pat: Pattern, pre: string, b: string, j: nat)
    requires MarkShape(pat.marks.open) && !Contains(pre, pat.marks.open)
    requires |b| > 0 && b[0] == '<'
    requires j < |pre|
    ensures MatchLen(pat, (pre + b)[j..]).None?
  {
    StartsAtSuffix(pre + b, pat.marks.open, j, 0);
    AbsentBeforeSeam(pre, b, pat.marks.open, '<', j);
  }

  /** The closing mark of a framed block, seen in `pre + block + rest`. */
  lemma {:induction false} CloseAtEnd(m: Marks, pre: string, eol: string, body: string, rest: string)
    ensures StartsAt(pre + Framed(m, eol, body) + rest, m.close, |pre| + EndOffset(m, eol, body))
  {
    var f := Framed(m, eol, body);
    assert pre + f + rest == pre + (f + rest);
    FramedEnd(m, eol, body);
    StartsAtLeft(f, rest, m.close, EndOffset(m, eol, body));
    StartsAtRight(pre, f + rest, m.close, EndOffset(m, eol, body));
  }

  /** The greedy run is determined by where the class first fails. */
  lemma GreedyRunIs(y: string, cls: CharClass, pos: nat, r: nat)
    requires pos <= r && AllIn(y, cls, pos, r)
    requires r == |y| || !InClass(cls, y[r])
    ensures GreedyRun(y, cls, pos) == r
  {
  }

  /** A replacement that opens with `<` keeps the text's first character or puts `<` there. */
  lemma {:induction false} ReplaceAllHead(pat: Pattern, x: string, rep: string)
    requires |rep| > 0 && rep[0] == '<'
    ensures x == "" ==> ReplaceAll(pat, x, rep) == ""
    ensures x != "" ==> ReplaceAll(pat, x, rep) != ""
    ensures x != "" ==> ReplaceAll(pat, x, rep)[0] == x[0] || ReplaceAll(pat, x, rep)[0] == '<'
  {
    match Find(pat, x, 0)
    case None =>
    case Some(sp) =>
      var r := x[..sp.start] + rep + ReplaceAll(pat, x[sp.start + sp.len..], rep);
      assert sp.start > 0 ==> r[0] == x[0];
      assert sp.start == 0 ==> r[0] == rep[0];
  }

  // ---------------------------------------------------------------------
  // Any block that closes where its closing mark begins
  // ---------------------------------------------------------------------

  /**
   * What the scan needs to know about a block `b` whose closing mark
   * begins at `e`: it opens with `<`, holds no closing mark before `e`,
   * and everything after the closing mark is in the pattern's tail class.
   */
  ghost predicate Closes(pat: Pattern, b: string, e: nat)
  {
    && |b| > 0 && b[0] == '<'
    && StartsAt(b, pat.marks.close, e)
    && (forall k :: 0 <= k < e ==> !StartsAt(b, pat.marks.close, k))
    && AllIn(b, pat.tail, e + |pat.marks.close|, |b|)
  }

  /** A block that a dot-all pattern matches from its start: it opens with the opening mark and closes at `e`. */
  ghost predicate BlockAt(pat: Pattern, b: string, e: nat)
  {
    pat.gap == AnyChar && Closes(pat, b, e) && StartsAt(b, pat.marks.open, 0) && |pat.marks.open| <= e
  }

  /** Where a text holds no `<`, no mark whose lead character is `<` begins. */
  lemma {:induction false} NoMarkWithoutLt(x: string, mark: string, i: nat)
    requires |mark| > 0 && mark[0] == '<' && i < |x| && x[i] != '<'
    ensures !StartsAt(x, mark, i)
  {
    StartsAtFirst(x, mark, i);
  }

  /**
   * A mark that holds no line-ending character and begins inside `body`,
   * where `body` is followed by a line-ending character, lies wholly in
   * `body`; so it does not begin there when `body` holds none.
   */
  lemma {:induction false} NoMarkInLine(mark: string, h: string, body: string, t: string, x: string, i: nat)
    requires LacksFrom(mark, '\n', 0) && LacksFrom(mark, '\r', 0)
    requires Absent(body, mark)
    requires |t| > 0 && (t[0] == '\n' || t[0] == '\r')
    requires x == h + body + t && |h| <= i < |h| + |body|
    ensures !StartsAt(x, mark, i)
  {
    var b1 := |h| + |body|;
    if i + |mark| <= b1 {
      assert x[i..i + |mark|] == body[i - |h|..i - |h| + |mark|];
      assert !StartsAt(body, mark, i - |h|);
    } else if i + |mark| <= |x| {
      assert x[b1] == t[0];
      assert x[i..i + |mark|][b1 - i] != mark[b1 - i];
    }
  }

  /** In a framed block whose body holds no closing mark, none begins before `EndOffset`. */
  lemma {:induction false} CloseFreeBeforeEnd(m: Marks, eol: string, body: string, i: nat)
    requires WellShaped(m) && ValidEol(eol) && Absent(body, m.close)
    requires i < EndOffset(m, eol, body)
    ensures !StartsAt(Framed(m, eol, body), m.close, i)
  {
    var f := Framed(m, eol, body);
    var h := m.open + eol;
    var t := eol + m.close + eol;
    assert f == h + body + t;
    if i == 0 {
      FramedStart(m, eol, body);
      MarksDiffer(m, f, 0);
    } else if i < |h| {
      assert LacksFrom(eol, '<', 0);
      LacksConcat(m.open, eol, '<', 1);
      assert f[i] == h[i];
      NoMarkWithoutLt(f, m.close, i);
    } else if i < |h| + |body| {
      NoMarkInLine(m.close, h, body, t, f, i);
    } else {
      assert f[i] == eol[i - |h| - |body|];
      NoMarkWithoutLt(f, m.close, i);
    }
  }

  /** A framed block whose body holds no closing mark closes at `EndOffset` for a tail class that takes line endings. */
  lemma {:induction false} FramedClosesAny(pat: Pattern, eol: string, body: string)
    requires InClass(pat.tail, '\n') && InClass(pat.tail, '\r')
    requires WellShaped(pat.marks) && ValidEol(eol) && Absent(body, pat.marks.close)
    ensures Closes(pat, Framed(pat.marks, eol, body), EndOffset(pat.marks, eol, body))
    ensures StartsAt(Framed(pat.marks, eol, body), pat.marks.open, 0)
    ensures |pat.marks.open| <= EndOffset(pat.marks, eol, body)
  {
    var m := pat.marks;
    var f := Framed(m, eol, body);
    FramedHead(m, eol, body);
    FramedStart(m, eol, body);
    FramedEnd(m, eol, body);
    forall k | 0 <= k < EndOffset(m, eol, body)
      ensures !StartsAt(f, m.close, k)
    {
      CloseFreeBeforeEnd(m, eol, body, k);
    }
    var tailStart := EndOffset(m, eol, body) + |m.close|;
    forall k | tailStart <= k < |f|
      ensures InClass(pat.tail, f[k])
    {
      assert f[k] == f[tailStart..][k - tailStart] == eol[k - tailStart];
    }
  }

  /** Over any character, the lazy scan on a block followed by more text stops where the block closes. */
  lemma {:induction false} LazyBlock(pat: Pattern, b: string, e: nat, t: string, y: string)
    requires Closes(pat, b, e) && |pat.marks.open| <= e && y == b + t
    ensures LazyScan(y, pat.marks.close, AnyChar, |pat.marks.open|) == Some(e)
  {
    var close := pat.marks.close;
    forall k | |pat.marks.open| <= k < e
      ensures !StartsAt(y, close, k)
    {
      StartsAtLeft(b, t, close, k);
    }
    StartsAtLeft(b, t, close, e);
    LazyScanIs(y, close, AnyChar, |pat.marks.open|, e);
  }

  /** The tail run after a block's closing mark covers the rest of the block and the run `ws` after it. */
  lemma {:induction false} GreedyBlock(pat: Pattern, b: string, e: nat, ws: string, rest: string, y: string)
    requires Closes(pat, b, e) && AllIn(ws, pat.tail, 0, |ws|) && (rest == "" || !InClass(pat.tail, rest[0]))
    requires y == b + ws + rest
    ensures GreedyRun(y, pat.tail, e + |pat.marks.close|) == |b| + |ws|
  {
    var lo := e + |pat.marks.close|;
    forall k | lo <= k < |b| + |ws|
      ensures InClass(pat.tail, y[k])
    {
      if k < |b| {
        assert y[k] == b[k];
      } else {
        assert y[k] == ws[k - |b|];
      }
    }
    assert |b| + |ws| < |y| ==> y[|b| + |ws|] == rest[0];
    GreedyRunIs(y, pat.tail, lo, |b| + |ws|);
  }

  /**
   * A pattern whose gap is any character matches a block that opens with
   * the opening mark and closes at `e`, together with the run `ws` of tail
   * characters after it, up to text that does not continue the run.
   */
  lemma {:induction false} MatchBlock(pat: Pattern, b: string, e: nat, ws: string, rest: string, y: string)
    requires BlockAt(pat, b, e)
    requires AllIn(ws, pat.tail, 0, |ws|) && (rest == "" || !InClass(pat.tail, rest[0]))
    requires y == b + ws + rest
    ensures MatchLen(pat, y) == Some(|b| + |ws|)
  {
    assert y == b + (ws + rest);
    StartsAtLeft(b, ws + rest, pat.marks.open, 0);
    LazyBlock(pat, b, e, ws + rest, y);
    GreedyBlock(pat, b, e, ws, rest, y);
    MatchLenIs(pat, y, e, |b| + |ws|);
  }

  /** Behind a prefix free of opening marks, a text that matches at its start gives the leftmost match. */
  lemma {:induction false} FindAfterFree(pat: Pattern, pre: string, y: string, n: nat, x: string)
    requires MarkShape(pat.marks.open) && Absent(pre, pat.marks.open)
    requires |y| > 0 && y[0] == '<' && MatchLen(pat, y) == Some(n) && x == pre + y
    ensures Find(pat, x, 0) == Some(Span(|pre|, n))
  {
    AbsentIff(pre, pat.marks.open);
    forall j | 0 <= j < |pre|
      ensures MatchLen(pat, x[j..]).None?
    {
      StartFreePrefix(pat, pre, y, j);
    }
    assert x[|pre|..] == y;
    FindIs(pat, x, 0, |pre|, n);
  }

  /** A four-piece concatenation regrouped after its first piece (kept apart to keep the solver cheap). */
  lemma {:induction false} Regroup(a: string, b: string, c: string, d: string, x: string)
    requires x == a + b + c + d
    ensures x == a + (b + c + d)
  {
    assert a + b + c + d == a + (b + c + d);
  }

  /**
   * Behind a prefix free of opening marks, a block that opens with the
   * opening mark and closes at `e` is the leftmost match, together with
   * the run `ws` of tail characters after it.
   */
  lemma {:induction false} FindBlock(pat: Pattern, pre: string, b: string, e: nat, ws: string, rest: string, y: string, x: string)
    requires MarkShape(pat.marks.open) && Absent(pre, pat.marks.open) && BlockAt(pat, b, e)
    requires AllIn(ws, pat.tail, 0, |ws|) && (rest == "" || !InClass(pat.tail, rest[0]))
    requires y == b + ws + rest && x == pre + y
    ensures Find(pat, x, 0) == Some(Span(|pre|, |b| + |ws|))
  {
    MatchBlock(pat, b, e, ws, rest, y);
    assert y[0] == b[0];
    FindAfterFree(pat, pre, y, |b| + |ws|, x);
  }

  /**
   * A block `b` framed by the pattern's marks after text free of opening
   * marks, with no closing mark in its body, is the leftmost match,
   * whatever its line ending and body; the match takes along the run `ws`
   * of tail characters that follows it.
   */
  lemma {:induction false} BlockFound(pat: Pattern, pre: string, eol: string, body: string, b: string, ws: string, rest: string, x: string)
    requires pat.gap == AnyChar && InClass(pat.tail, '\n') && InClass(pat.tail, '\r')
    requires WellShaped(pat.marks) && ValidEol(eol) && Absent(body, pat.marks.close) && !Contains(pre, pat.marks.open)
    requires AllIn(ws, pat.tail, 0, |ws|) && (rest == "" || !InClass(pat.tail, rest[0]))
    requires b == Framed(pat.marks, eol, body) && x == pre + b + ws + rest
    ensures Find(pat, x, 0) == Some(Span(|pre|, |b| + |ws|))
  {
    FramedClosesAny(pat, eol, body);
    AbsentIff(pre, pat.marks.open);
    Regroup(pre, b, ws, rest, x);
    FindBlock(pat, pre, b, EndOffset(pat.marks, eol, body), ws, rest, b + ws + rest, x);
  }
}

=== FILE: file_system.dfy ===
/**
 * A file system as a map from paths to entries, with the three
 * operations the atomic write uses: `mkdir -p`, writing a whole file and
 * an atomic rename. Each fails, answering `None`, where the corresponding
 * system call fails because of what is or is not at a path.
 */
module FileSystem {
  import opened Wrappers
  import opened Paths

  newtype byte = x: int | 0 <= x < 256

  type Bytes = seq<byte>

  datatype Entry = File(data: Bytes) | Directory

  /** Every path that exists, with what is there; the root is a directory whether listed or not. */
  type FS = map<Dir, Entry>

  predicate IsDir(fs: FS, d: Dir)
  {
    d == [] || (d in fs && fs[d] == Directory)
  }

  predicate IsFile(fs: FS, p: Dir)
  {
    p in fs && fs[p].File?
  }

  /** What is at `p`, if anything. */
  function Lookup(fs: FS, p: Dir): Option<Entry>
  {
    if p in fs then Some(fs[p]) else None
  }

  /** `p` is `d` or one of its ancestors other than the root. */
  predicate AncestorOf(p: Dir, d: Dir)
  {
    0 < |p| <= |d| && p == d[..|p|]
  }

  /**
   * `mkdir -p d` (`mkdir(parents=True, exist_ok=True)`, `mkdirSync` with
   * `recursive`): succeeds exactly when no ancestor of `d` is a file,
   * and then adds the missing ancestors as directories and nothing else.
   */
  function MakeDirs(fs: FS, d: Dir): (r: Option<FS>)
    ensures r.Some? <==> forall n :: 0 < n <= |d| ==> !IsFile(fs, d[..n])
    ensures r.Some? ==> forall n :: 0 < n <= |d| ==> IsDir(r.value, d[..n])
    ensures r.Some? ==> forall p :: p in fs ==> p in r.value && r.value[p] == fs[p]
    ensures r.Some? ==> forall p :: p in r.value && p !in fs ==> AncestorOf(p, d) && r.value[p] == Directory
    decreases |d|
  {
    if d == [] then Some(fs)
    else
      var up := d[..|d| - 1];
      assert forall n :: 0 < n <= |up| ==> up[..n] == d[..n];
      assert d[..|d|] == d;
      match MakeDirs(fs, up)
      case None => None
      case Some(fs1) =>
        if d !in fs1 then Some(fs1[d := Directory])
        else if fs1[d] == Directory then Some(fs1)
        else
          assert IsFile(fs, d[..|d|]);
          None
  }

  /**
   * Writing a whole file (`open("wb")`, `writeFileSync`): succeeds when
   * the parent is a directory and `p` is not one, and then `p` holds
   * exactly `data`.
   */
  function WriteFile(fs: FS, p: Dir, data: Bytes): (r: Option<FS>)
    requires p != []
    ensures r.Some? <==> IsDir(fs, Dirname(p)) && !IsDir(fs, p)
    ensures r.Some? ==> Lookup(r.value, p) == Some(File(data))
    ensures r.Some? ==> forall q :: q != p ==> Lookup(r.value, q) == Lookup(fs, q)
  {
    if IsDir(fs, Dirname(p)) && !IsDir(fs, p) then Some(fs[p := File(data)]) else None
  }

  /**
   * An atomic rename over an existing file (`os.replace`, `renameSync`):
   * succeeds when `src` is a file and `dst` is not a directory but has
   * one as parent, and then `dst` holds what `src` held and `src` is gone.
   */
  function Rename(fs: FS, src: Dir, dst: Dir): (r: Option<FS>)
    requires src != dst && dst != []
    ensures r.Some? <==> IsFile(fs, src) && IsDir(fs, Dirname(dst)) && !IsDir(fs, dst)
    ensures r.Some? ==> Lookup(r.value, dst) == Lookup(fs, src) && src !in r.value
    ensures r.Some? ==> forall q :: q != src && q != dst ==> Lookup(r.value, q) == Lookup(fs, q)
  {
    if IsFile(fs, src) && IsDir(fs, Dirname(dst)) && !IsDir(fs, dst) then
      Some((fs - {src})[dst := fs[src]])
    else None
  }

  /** `<target>.tmp` beside the target (`target + '.tmp'`, and `with_suffix(suffix + ".tmp")`). */
  function TmpPath(target: Dir): (t: Dir)
    requires target != []
    ensures |t| == |target| && t != target && Dirname(t) == Dirname(target)
  {
    var name := target[|target| - 1];
    assert |name + ".tmp"| != |name|;
    Dirname(target) + [name + ".tmp"]
  }
}

=== FILE: git_root.dfy ===
/**
 * The repository-root walk (`_git_root` in the Python port, `gitRoot` in
 * the Node port): from a start directory upward to the nearest directory
 * that holds `.git`, falling back to the start when there is none.
 *
 * Directories are lists of components below the file-system root; which
 * directories hold `.git` is the set `git`, an input of the walk.
 */
module GitRoot {
  import opened Wrappers
  import opened Paths

  /**
   * The longest prefix `d[..n]` with `lo <= n <= hi` that is in `git`:
   * the walk from `d[..hi]` upward, parent by parent, that stops at `d[..lo]`.
   */
  function Nearest(git: set<Dir>, d: Dir, lo: nat, hi: nat): (r: Option<nat>)
    requires lo <= hi <= |d|
    ensures r.Some? ==> lo <= r.value <= hi && d[..r.value] in git
    ensures r.Some? ==> forall n :: r.value < n <= hi ==> d[..n] !in git
    ensures r.None? ==> forall n :: lo <= n <= hi ==> d[..n] !in git
    decreases hi
  {
    if d[..hi] in git then Some(hi)
    else if hi == lo then None
    else Nearest(git, d, lo, hi - 1)
  }

  // ---------------------------------------------------------------------
  // Python: `for parent in [cur, *cur.parents]`
  // ---------------------------------------------------------------------

  /** The path itself (`n == |p.parts|`) or one of `p.parents`, keeping `n` components. */
  function Candidate(p: Path, n: nat): Path
    requires n <= |p.parts|
  {
    Path(p.absolute, p.parts[..n])
  }

  /** The candidate with `n` components holds `.git`. */
  ghost predicate PyMarked(cwd: Dir, git: set<Dir>, start: Path, n: nat)
    requires n <= |start.parts|
  {
    Resolve(cwd, Candidate(start, n)) in git
  }

  /** The Python candidates are the prefixes of the resolved start that keep the working directory. */
  lemma ResolveCandidates(cwd: Dir, start: Path)
    ensures var d := Resolve(cwd, start);
      forall n :: 0 <= n <= |start.parts| ==>
        Resolve(cwd, Candidate(start, n)) == d[..|d| - |start.parts| + n]
  {
  }

  /**
   * `_git_root`: the first of `start` and its parents that holds `.git`,
   * so that no nearer candidate holds it; `start` itself, as given, when
   * none does.
   */
  function PyGitRoot(cwd: Dir, git: set<Dir>, start: Path): (r: Path)
    ensures (exists n :: 0 <= n <= |start.parts| && PyMarked(cwd, git, start, n)) ==>
      && |r.parts| <= |start.parts| && r == Candidate(start, |r.parts|)
      && PyMarked(cwd, git, start, |r.parts|)
      && forall n :: |r.parts| < n <= |start.parts| ==> !PyMarked(cwd, git, start, n)
    ensures (forall n :: 0 <= n <= |start.parts| ==> !PyMarked(cwd, git, start, n)) ==> r == start
  {
    var d := Resolve(cwd, start);
    var lo := |d| - |start.parts|;
    ResolveCandidates(cwd, start);
    match Nearest(git, d, lo, |d|)
    case None => start
    case Some(n) =>
      assert PyMarked(cwd, git, start, n - lo);
      Candidate(start, n - lo)
  }

  // ---------------------------------------------------------------------
  // Node: `path.resolve(start)`, then `path.dirname` until it is a fixpoint
  // ---------------------------------------------------------------------

  /** The nearest prefix of `d` in `git`, or `d` itself when there is none. */
  function NodeRoot(git: set<Dir>, d: Dir): (r: Dir)
    ensures (exists n :: 0 <= n <= |d| && d[..n] in git) ==>
      && |r| <= |d| && r == d[..|r|] && r in git
      && forall n :: |r| < n <= |d| ==> d[..n] !in git
    ensures (forall n :: 0 <= n <= |d| ==> d[..n] !in git) ==> r == d
  {
    match Nearest(git, d, 0, |d|)
    case None => d
    case Some(n) => d[..n]
  }

  /**
   * `gitRoot`: walks up from the resolved start through `dirname`, stops
   * at the first directory holding `.git`, and answers the resolved start
   * once the root, its own parent, has been checked.
   */
  method NodeGitRoot(cwd: Dir, git: set<Dir>, start: Path) returns (r: Dir)
    ensures var d := Resolve(cwd, start);
      (exists n :: 0 <= n <= |d| && d[..n] in git) ==>
        && |r| <= |d| && r == d[..|r|] && r in git
        && forall n :: |r| < n <= |d| ==> d[..n] !in git
    ensures var d := Resolve(cwd, start);
      (forall n :: 0 <= n <= |d| ==> d[..n] !in git) ==> r == d
    ensures r == NodeRoot(git, Resolve(cwd, start))
  {
    var d := Resolve(cwd, start);
    var cur := d;
    while cur !in git && Dirname(cur) != cur
      invariant |cur| <= |d| && cur == d[..|cur|]
      invariant forall n :: |cur| < n <= |d| ==> d[..n] !in git
      decreases |cur|
    {
      cur := Dirname(cur);
    }
    if cur in git {
      r := cur;
    } else {
      r := d;
    }
  }

  // ---------------------------------------------------------------------
  // Properties of the walk
  // ---------------------------------------------------------------------

  /** Walking again from the root the Python walk found gives that root back. */
  lemma {:induction false} PyGitRootIdempotent(cwd: Dir, git: set<Dir>, start: Path)
    ensures PyGitRoot(cwd, git, PyGitRoot(cwd, git, start)) == PyGitRoot(cwd, git, start)
  {
    var r := PyGitRoot(cwd, git, start);
    if exists n :: 0 <= n <= |start.parts| && PyMarked(cwd, git, start, n) {
      assert Candidate(r, |r.parts|) == r;
      assert PyMarked(cwd, git, r, |r.parts|);
    }
  }

  /** Walking again from the root the Node walk found gives that root back. */
  lemma {:induction false} NodeRootIdempotent(git: set<Dir>, d: Dir)
    ensures NodeRoot(git, NodeRoot(git, d)) == NodeRoot(git, d)
  {
    var r := NodeRoot(git, d);
    if exists n :: 0 <= n <= |d| && d[..n] in git {
      assert r[..|r|] == r;
    } else {
      assert d[..|d|] == d;
    }
  }

  /** From an absolute start, both ports name the same directory. */
  lemma {:induction false} RootsAgreeOnAbsolute(cwd: Dir, git: set<Dir>, start: Path)
    requires start.absolute
    ensures Resolve(cwd, PyGitRoot(cwd, git, start)) == NodeRoot(git, Resolve(cwd, start))
  {
    var d := Resolve(cwd, start);
    ResolveCandidates(cwd, start);
    assert |d| - |start.parts| == 0;
  }

  /**
   * From a relative start the Python walk ends at the working directory
   * (`Path('.')` has no parents), while the Node walk goes on above it:
   * a `.git` found only above the working directory is found by Node alone.
   */
  lemma {:induction false} RelativeStopsAtCwd(cwd: Dir, git: set<Dir>, start: Path, k: nat)
    requires !start.absolute && k < |cwd| && cwd[..k] in git
    requires forall n :: 0 <= n <= |start.parts| ==> !PyMarked(cwd, git, start, n)
    ensures PyGitRoot(cwd, git, start) == start
    ensures NodeRoot(git, Resolve(cwd, start)) != Resolve(cwd, start)
  {
    var d := Resolve(cwd, start);
    ResolveCandidates(cwd, start);
    assert d[..k] == cwd[..k];
    assert Candidate(start, |start.parts|) == start;
    assert !PyMarked(cwd, git, start, |start.parts|);
  }
}

=== FILE: inject.dfy ===
/**
 * The `inject` command of both ports, on the text of the agents file
 * (the empty string when the file does not exist).
 *
 * Each port picks the line ending, renders the pointer block with it and
 * then either rewrites the existing block through a regular expression,
 * when both marks occur, or appends the block. The Python port
 * substitutes every match of `START.*?END\s*` under `re.S`. The Node port
 * builds its pattern inside a template literal, where `\s` and `\S` lose
 * their backslash, so the regex it compiles is `START[sS]*?ENDs*`, and it
 * replaces only the leftmost match; `NodeInjectIntended` is the same
 * command with `START[\s\S]*?END\s*`.
 */
module Inject {
  import opened Wrappers
  import opened Strings
  import opened Markers
  import opened LineEndings
  import opened Block
  import opened MarkerPattern
  import opened BlockScan
  import opened Upsert
  import opened StrayMark
  import opened Rewrite
  import opened NarrowGap

  /** `inject` of the Python port. */
  function PythonInject(text: string): (r: string)
    ensures HasMarks(SkillMarks, r) && ChooseEol(r) == ChooseEol(text)
    ensures !HasMarks(SkillMarks, text) ==> r == Append(text, ChooseEol(text), Render(ChooseEol(text)))
  {
    SkillShape();
    UpsertKeeps(PythonPattern, PointerLine, text);
    UpsertAll(PythonPattern, PointerLine, text)
  }

  /** `inject` of the Node port, with the regex its template literal compiles. */
  function NodeInject(text: string): (r: string)
    ensures HasMarks(SkillMarks, r) && ChooseEol(r) == ChooseEol(text)
    ensures !HasMarks(SkillMarks, text) ==> r == Append(text, ChooseEol(text), Render(ChooseEol(text)))
  {
    SkillShape();
    UpsertKeeps(NodePatternAsWritten, PointerLine, text);
    UpsertFirst(NodePatternAsWritten, PointerLine, text)
  }

  /** `inject` of the Node port with the regex `START[\s\S]*?END\s*` its authors evidently meant. */
  function NodeInjectIntended(text: string): (r: string)
    ensures HasMarks(SkillMarks, r) && ChooseEol(r) == ChooseEol(text)
    ensures !HasMarks(SkillMarks, text) ==> r == Append(text, ChooseEol(text), Render(ChooseEol(text)))
  {
    SkillShape();
    UpsertKeeps(NodePatternIntended, PointerLine, text);
    UpsertFirst(NodePatternIntended, PointerLine, text)
  }

  /** The Python pattern and the intended Node pattern cross any character and take line endings as tail. */
  lemma {:induction false} PatternsDotAll()
    ensures DotAll(PythonPattern) && DotAll(NodePatternIntended)
  {
    SkillShape();
  }

  /** A missing or empty agents file gets exactly the block, with `\n` line endings. */
  lemma {:induction false} EmptyGetsBlock()
    ensures PythonInject("") == Render(LF)
    ensures NodeInject("") == Render(LF)
    ensures NodeInjectIntended("") == Render(LF)
  {
    assert !Contains("", StartMark);
    assert Lead("", LF) == "";
  }

  /**
   * Running the Python `inject` twice gives what running it once gives,
   * whenever an opening mark in the file comes with a closing mark.
   */
  lemma {:induction false} PythonIdempotent(text: string)
    requires Contains(text, StartMark) ==> Contains(text, EndMark)
    ensures PythonInject(PythonInject(text)) == PythonInject(text)
  {
    SkillShape();
    PatternsDotAll();
    UpsertAllIdempotent(PythonPattern, PointerLine, text);
  }

  /** The same for the Node `inject` with the intended regex. */
  lemma {:induction false} NodeIntendedIdempotent(text: string)
    requires Contains(text, StartMark) ==> Contains(text, EndMark)
    ensures NodeInjectIntended(NodeInjectIntended(text)) == NodeInjectIntended(text)
  {
    SkillShape();
    PatternsDotAll();
    UpsertFirstIdempotent(NodePatternIntended, PointerLine, text);
  }

  /**
   * Both marks present, but no closing mark after any opening one: the
   * replace path finds nothing, and every port leaves the text as it is.
   */
  lemma {:induction false} NoEndAfterStartUnchanged(text: string)
    requires HasMarks(SkillMarks, text) && NoCloseAfterOpen(SkillMarks, text)
    ensures PythonInject(text) == text
    ensures NodeInject(text) == text
    ensures NodeInjectIntended(text) == text
  {
    NoCloseNoMatch(PythonPattern, text);
    NoCloseNoMatch(NodePatternAsWritten, text);
    NoCloseNoMatch(NodePatternIntended, text);
  }

  /** Cutting a document at an opening mark and adding the block is shorter than appending the block. */
  lemma {:induction false} CutIsShorter(text: string, j: nat, eol: string)
    requires ValidEol(eol) && IndexOf(text, StartMark, 0) == Some(j)
    ensures text[..j] + Render(eol) != Append(text, eol, Render(eol))
  {
    SkillMarksShape();
    assert |text[..j] + Render(eol)| < |text| + |Render(eol)|;
  }

  /**
   * A file with an opening mark but no closing mark: the first run
   * appends the block, the second replaces everything from the stray
   * mark on by the block, so the Python `inject` is not idempotent there.
   */
  lemma {:induction false} PythonSwallowsStray(text: string, j: nat)
    requires IndexOf(text, StartMark, 0) == Some(j) && !Contains(text, EndMark)
    ensures PythonInject(PythonInject(text)) == text[..j] + Render(ChooseEol(text))
    ensures PythonInject(PythonInject(text)) != PythonInject(text)
  {
    SkillShape();
    PatternsDotAll();
    StrayRerun(PythonPattern, PointerLine, text, j);
    CutIsShorter(text, j, ChooseEol(text));
  }

  /** The same for the Node `inject` with the intended regex. */
  lemma {:induction false} NodeIntendedSwallowsStray(text: string, j: nat)
    requires IndexOf(text, StartMark, 0) == Some(j) && !Contains(text, EndMark)
    ensures NodeInjectIntended(NodeInjectIntended(text)) == text[..j] + Render(ChooseEol(text))
    ensures NodeInjectIntended(NodeInjectIntended(text)) != NodeInjectIntended(text)
  {
    SkillShape();
    PatternsDotAll();
    StrayRerun(NodePatternIntended, PointerLine, text, j);
    CutIsShorter(text, j, ChooseEol(text));
  }

  /**
   * An existing block `blk`, whatever its line ending and body, provided
   * the body holds no closing mark, is replaced by the current block with
   * the file's line ending. The text before it is kept, and so is the text
   * after it, except for the whitespace right after the block, which
   * `\s*` takes along: it is dropped. No other opening mark may occur.
   */
  lemma {:induction false} PythonRewritesBlock(pre: string, e0: string, body0: string, blk: string, ws: string, rest: string, text: string)
    requires ValidEol(e0) && !Contains(body0, EndMark)
    requires !Contains(pre, StartMark) && !Contains(rest, StartMark)
    requires AllIn(ws, PythonSpace, 0, |ws|) && (rest == "" || !IsPythonSpace(rest[0]))
    requires blk == Framed(SkillMarks, e0, body0) && text == pre + blk + ws + rest
    ensures PythonInject(text) == pre + Render(ChooseEol(text)) + rest
  {
    SkillShape();
    PatternsDotAll();
    assert text == pre + blk + (ws + rest);
    FramedGivesMarks(SkillMarks, pre, e0, body0, ws + rest);
    ReplaceBlockAll(PythonPattern, pre, e0, body0, blk, ws, rest, Render(ChooseEol(text)), text);
    Untouched(PythonPattern, rest, Render(ChooseEol(text)));
  }

  /**
   * The same for the Node `inject` with the intended regex, which rewrites
   * the first block whatever follows it.
   */
  lemma {:induction false} NodeIntendedRewritesBlock(pre: string, e0: string, body0: string, blk: string, ws: string, rest: string, text: string)
    requires ValidEol(e0) && !Contains(body0, EndMark) && !Contains(pre, StartMark)
    requires AllIn(ws, JsSpace, 0, |ws|) && (rest == "" || !IsJsSpace(rest[0]))
    requires blk == Framed(SkillMarks, e0, body0) && text == pre + blk + ws + rest
    ensures NodeInjectIntended(text) == pre + Render(ChooseEol(text)) + rest
  {
    SkillShape();
    PatternsDotAll();
    assert text == pre + blk + (ws + rest);
    FramedGivesMarks(SkillMarks, pre, e0, body0, ws + rest);
    ReplaceBlockFirst(NodePatternIntended, pre, e0, body0, blk, ws, rest, Render(ChooseEol(text)), text);
  }

  /**
   * A re-run on a file whose block is already current still changes the
   * file when whitespace follows the block: the Python port drops that
   * whitespace, blank lines included.
   */
  lemma {:induction false} PythonDropsSpaceAfterBlock(pre: string, ws: string, rest: string, text: string)
    requires !Contains(pre, StartMark) && !Contains(rest, StartMark)
    requires ws != "" && AllIn(ws, PythonSpace, 0, |ws|) && (rest == "" || !IsPythonSpace(rest[0]))
    requires text == pre + Render(ChooseEol(text)) + ws + rest
    ensures PythonInject(text) == pre + Render(ChooseEol(text)) + rest
    ensures PythonInject(text) != text
  {
    SkillShape();
    var eol := ChooseEol(text);
    LacksLead(PointerLine, EndMark, '<');
    PythonRewritesBlock(pre, eol, PointerLine, Render(eol), ws, rest, text);
    assert |PythonInject(text)| < |text|;
  }

  /** The same for the Node `inject` with the intended regex. */
  lemma {:induction false} NodeIntendedDropsSpaceAfterBlock(pre: string, ws: string, rest: string, text: string)
    requires !Contains(pre, StartMark)
    requires ws != "" && AllIn(ws, JsSpace, 0, |ws|) && (rest == "" || !IsJsSpace(rest[0]))
    requires text == pre + Render(ChooseEol(text)) + ws + rest
    ensures NodeInjectIntended(text) == pre + Render(ChooseEol(text)) + rest
    ensures NodeInjectIntended(text) != text
  {
    SkillShape();
    var eol := ChooseEol(text);
    LacksLead(PointerLine, EndMark, '<');
    NodeIntendedRewritesBlock(pre, eol, PointerLine, Render(eol), ws, rest, text);
    assert |NodeInjectIntended(text)| < |text|;
  }

  /**
   * The Node `inject` as written never rewrites a block: `[sS]*?` cannot
   * cross the line ending after the opening mark, so an existing block
   * stays as it is, however stale its pointer line or line ending.
   */
  lemma {:induction false} NodeKeepsStaleBlock(pre: string, e0: string, body0: string, post: string, text: string)
    requires ValidEol(e0) && LacksFrom(body0, '<', 0)
    requires !Contains(pre, StartMark) && !Contains(post, StartMark)
    requires text == pre + Framed(SkillMarks, e0, body0) + post
    ensures NodeInject(text) == text
  {
    assert HasMarks(SkillMarks, text) && Find(NodePatternAsWritten, text, 0) == None by {
      SkillShape();
      FramedGivesMarks(SkillMarks, pre, e0, body0, post);
      BlockOpensLine(SkillMarks, pre, e0, body0, post, text);
      NoLineMatch(NodePatternAsWritten, text);
    }
    UnmatchedKept(text);
  }

  /** With both marks present but no match, the Node `inject` as written leaves the file alone. */
  lemma {:induction false} UnmatchedKept(text: string)
    requires HasMarks(SkillMarks, text) && Find(NodePatternAsWritten, text, 0) == None
    ensures NodeInject(text) == text
  {
  }

  /** On a file without an opening mark, the Node `inject` as written appends once and then leaves the file alone. */
  lemma {:induction false} NodeFreshIdempotent(text: string)
    requires !Contains(text, StartMark)
    ensures NodeInject(NodeInject(text)) == NodeInject(text)
  {
    var eol := ChooseEol(text);
    var once := NodeInject(text);
    assert once == Lead(text, eol) + Render(eol) + "";
    assert !Contains(Lead(text, eol), StartMark) && LacksFrom(PointerLine, '<', 0) by {
      SkillShape();
      if NeedsSeparator(text) {
        EolAddsNoMark(text, eol, StartMark);
      }
    }
    NodeKeepsStaleBlock(Lead(text, eol), eol, PointerLine, "", once);
  }

  /** A block with an empty pointer line: the Node `inject` as written keeps it. */
  lemma {:induction false} NodeMissesStaleBlock()
    ensures NodeInject(Framed(SkillMarks, LF, "")) == Framed(SkillMarks, LF, "")
    ensures Framed(SkillMarks, LF, "") != Render(LF)
  {
    var stale := Framed(SkillMarks, LF, "");
    assert stale == "" + stale + "";
    NodeKeepsStaleBlock("", LF, "", "", stale);
    assert |stale| < |Render(LF)|;
  }

  /** The same block: the intended regex, and the Python port, replace it by the current block. */
  lemma {:induction false} IntendedRefreshesStaleBlock()
    ensures NodeInjectIntended(Framed(SkillMarks, LF, "")) == Render(LF)
    ensures PythonInject(Framed(SkillMarks, LF, "")) == Render(LF)
  {
    SkillShape();
    var stale := Framed(SkillMarks, LF, "");
    FramedCrlf(SkillMarks, LF, "");
    assert ChooseEol(stale) == LF;
    assert stale == "" + stale + "";
    assert stale == "" + stale + "" + "";
    LacksLead("", EndMark, '<');
    NodeIntendedRewritesBlock("", LF, "", stale, "", "", stale);
    PythonRewritesBlock("", LF, "", stale, "", "", stale);
    assert "" + Render(LF) + "" == Render(LF);
  }

  // ---------------------------------------------------------------------
  // Node as written on a file with two bare mark pairs
  // ---------------------------------------------------------------------

  /** An opening mark directly followed by a closing mark, and then by `<` or nothing, is a whole match of the Node pattern as written. */
  lemma {:induction false} MarkPairMatches(y: string, after: string)
    requires y == StartMark + EndMark + after && (after == "" || after[0] == '<')
    ensures MatchLen(NodePatternAsWritten, y) == Some(|StartMark| + |EndMark|)
  {
    assert y == StartMark + (EndMark + after);
    StartsAtLeft(StartMark, EndMark + after, StartMark, 0);
    StartsAtRight(StartMark, EndMark + after, EndMark, 0);
    StartsAtLeft(EndMark, after, EndMark, 0);
    LazyScanIs(y, EndMark, Letters({'s', 'S'}), |StartMark|, |StartMark|);
    var p := |StartMark| + |EndMark|;
    assert p == |y| || y[p] == '<';
    GreedyRunIs(y, Letters({'s'}), p, p);
    MatchLenIs(NodePatternAsWritten, y, |StartMark|, p);
  }

  /** Two mark pairs, and a block rendered with `\n` before a mark pair, both get `\n` as line ending. */
  lemma {:induction false} PairsTakeLf(se: string)
    requires se == StartMark + EndMark
    ensures ChooseEol(se + se) == LF && ChooseEol(Render(LF) + se) == LF
  {
    SkillShape();
    LacksConcat(StartMark, EndMark, '\r', 0);
    LacksConcat(se, se, '\r', 0);
    NoCrNoCrlf(se);
    NoCrNoCrlf(se + se);
    FramedCrlf(SkillMarks, LF, PointerLine);
    FramedLayout(SkillMarks, LF, PointerLine);
    HasCrlfConcat(Render(LF), se);
  }

  /** With both marks present and `\n` chosen, the Node `inject` as written puts the block in place of the leftmost match. */
  lemma {:induction false} NodeReplacesMatch(x: string, k: nat, n: nat)
    requires HasMarks(SkillMarks, x) && ChooseEol(x) == LF
    requires Find(NodePatternAsWritten, x, 0) == Some(Span(k, n))
    ensures NodeInject(x) == x[..k] + Render(LF) + x[k + n..]
  {
    ReplaceFirstAt(NodePatternAsWritten, x, Render(LF), k, n);
  }

  /** Two mark pairs hold both marks, and their leftmost match is the first pair. */
  lemma {:induction false} PairsFirstMatch(se: string, x: string)
    requires se == StartMark + EndMark && x == se + se
    ensures HasMarks(SkillMarks, x)
    ensures Find(NodePatternAsWritten, x, 0) == Some(Span(0, |se|))
  {
    assert x == StartMark + (EndMark + se);
    StartsAtLeft(StartMark, EndMark + se, StartMark, 0);
    StartsAtRight(StartMark, EndMark + se, EndMark, 0);
    ContainsAt(x, StartMark, 0);
    ContainsAt(x, EndMark, |StartMark|);
    SkillShape();
    assert x[0..] == StartMark + EndMark + se;
    MarkPairMatches(x[0..], se);
    FindIs(NodePatternAsWritten, x, 0, 0, |se|);
  }

  /** The first run on two mark pairs rewrites the first pair into the block. */
  lemma {:induction false} NodeFirstRun(se: string, x: string)
    requires se == StartMark + EndMark && x == se + se
    ensures HasMarks(SkillMarks, x)
    ensures NodeInject(x) == Render(LF) + se
  {
    PairsTakeLf(se);
    PairsFirstMatch(se, x);
    NodeReplacesMatch(x, 0, |se|);
    assert x[..0] == "" && x[|se|..] == se;
  }

  /** No match of the Node pattern as written begins at a block rendered with `\n`: its opening mark ends its line. */
  lemma {:induction false} NoMatchAtBlock(b: string, se: string, once: string)
    requires b == Framed(SkillMarks, LF, PointerLine) && once == "" + b + se
    ensures MatchLen(NodePatternAsWritten, once).None?
  {
    SkillShape();
    OpenAtBlock(SkillMarks, "", LF, PointerLine, se, once);
    NoMatchAtLine(NodePatternAsWritten, once);
  }

  /** Nor does one begin inside it, where no opening mark begins. */
  lemma {:induction false} NoMatchInBlock(b: string, se: string, once: string, j: nat)
    requires b == Framed(SkillMarks, LF, PointerLine) && once == "" + b + se
    requires 0 < j < |b|
    ensures MatchLen(NodePatternAsWritten, once[j..]).None?
  {
    assert !StartsAt(once[j..], NodePatternAsWritten.marks.open, 0) by {
      SkillShape();
      OpenInsideBlock(SkillMarks, "", LF, PointerLine, se, once, j);
      StartsAtSuffix(once, StartMark, j, 0);
    }
  }

  /** After a block rendered with `\n`, the leftmost match is the mark pair that follows it. */
  lemma {:induction false} BlockThenPairMatch(b: string, se: string, once: string)
    requires b == Framed(SkillMarks, LF, PointerLine) && se == StartMark + EndMark && once == b + se
    ensures Find(NodePatternAsWritten, once, 0) == Some(Span(|b|, |se|))
  {
    assert once[|b|..] == StartMark + EndMark + "";
    MarkPairMatches(once[|b|..], "");
    assert once == "" + b + se;
    forall j | 0 <= j < |b|
      ensures MatchLen(NodePatternAsWritten, once[j..]).None?
    {
      if j == 0 {
        NoMatchAtBlock(b, se, once);
        assert once[0..] == once;
      } else {
        NoMatchInBlock(b, se, once, j);
      }
    }
    FindIs(NodePatternAsWritten, once, 0, |b|, |se|);
  }

  /** The second run skips the rendered block and rewrites the leftover pair into a second block. */
  lemma {:induction false} NodeSecondRun(se: string, once: string)
    requires se == StartMark + EndMark && once == Render(LF) + se
    ensures NodeInject(once) == Render(LF) + Render(LF)
  {
    var r := Render(LF);
    PairsTakeLf(se);
    BlockThenPairMatch(r, se, once);
    assert HasMarks(SkillMarks, once) by {
      FramedGivesMarks(SkillMarks, "", LF, PointerLine, se);
      assert once == "" + r + se;
    }
    NodeReplacesMatch(once, |r|, |se|);
    assert once[..|r|] == r && once[|r| + |se|..] == "";
  }

  /**
   * A file holding two bare mark pairs, one opening mark directly
   * followed by one closing mark, twice: the Node `inject` as written
   * rewrites the first pair into the block, and a second run, unable to
   * cross the line ending after the block's opening mark, rewrites the
   * leftover pair into a second block. So it is not idempotent although
   * the file holds both marks; the intended regex is.
   */
  lemma {:induction false} NodeNotIdempotent(se: string, x: string)
    requires se == StartMark + EndMark && x == se + se
    ensures Contains(x, StartMark) && Contains(x, EndMark)
    ensures NodeInject(x) == Render(LF) + se
    ensures NodeInject(NodeInject(x)) == Render(LF) + Render(LF)
    ensures NodeInject(NodeInject(x)) != NodeInject(x)
    ensures NodeInjectIntended(NodeInjectIntended(x)) == NodeInjectIntended(x)
  {
    NodeFirstRun(se, x);
    NodeSecondRun(se, Render(LF) + se);
    SkillShape();
    FramedLayout(SkillMarks, LF, PointerLine);
    assert |Render(LF)| > |se|;
    NodeIntendedIdempotent(x);
  }
}

=== FILE: line_endings.dfy ===
/**
 * Line-ending detection: the injector writes its block with CRLF when the
 * existing document already contains a CRLF anywhere, and with LF
 * otherwise (including for an empty or missing document).
 */
module LineEndings {
  import opened Strings

  const LF: string := "\n"
  const CRLF: string := "\r\n"

  /** The two line endings the injector ever writes. */
  predicate ValidEol(eol: string)
  {
    eol == LF || eol == CRLF
  }

  /** A carriage return immediately followed by a line feed sits at `i`. */
  predicate CrlfAt(text: string, i: nat)
  {
    i + 1 < |text| && text[i] == '\r' && text[i + 1] == '\n'
  }

  /** Reference definition: some CRLF pair occurs in `text`. */
  ghost predicate HasCrlf(text: string)
  {
    exists i: nat :: CrlfAt(text, i)
  }

  /** The substring test for `"\r\n"` agrees with the reference definition. */
  lemma ContainsCrlfIff(text: string)
    ensures Contains(text, CRLF) <==> HasCrlf(text)
  {
    ContainsIff(text, CRLF);
    if Contains(text, CRLF) {
      var i: nat :| StartsAt(text, CRLF, i);
      assert text[i..i + 2][0] == text[i] && text[i..i + 2][1] == text[i + 1];
      assert CrlfAt(text, i);
    }
    if HasCrlf(text) {
      var i: nat :| CrlfAt(text, i);
      assert text[i..i + 2] == CRLF;
      assert StartsAt(text, CRLF, i);
    }
  }

  /** The line ending of a non-empty document (`detectEol`, `_detect_eol`). */
  function DetectEol(text: string): (eol: string)
    ensures ValidEol(eol)
    ensures eol == CRLF <==> HasCrlf(text)
  {
    ContainsCrlfIff(text);
    if Contains(text, CRLF) then CRLF else LF
  }

  /** The line ending chosen by `inject`: LF for empty text, else detected. */
  function ChooseEol(text: string): (eol: string)
    ensures ValidEol(eol)
    ensures eol == CRLF <==> HasCrlf(text)
    ensures text == "" ==> eol == LF
  {
    if text == "" then LF else DetectEol(text)
  }

  /** A CRLF in a concatenation lies in one half or across the seam. */
  lemma {:induction false} HasCrlfConcat(a: string, b: string)
    ensures HasCrlf(a + b) <==>
      HasCrlf(a) || HasCrlf(b) || (EndsWithChar(a, '\r') && |b| > 0 && b[0] == '\n')
  {
    if HasCrlf(a + b) {
      var i: nat :| CrlfAt(a + b, i);
      if i + 1 < |a| {
        assert CrlfAt(a, i);
      } else if i >= |a| {
        assert CrlfAt(b, i - |a|);
      }
    }
    if HasCrlf(a) {
      var i: nat :| CrlfAt(a, i);
      assert CrlfAt(a + b, i);
    }
    if HasCrlf(b) {
      var i: nat :| CrlfAt(b, i);
      assert CrlfAt(a + b, |a| + i);
    }
    if EndsWithChar(a, '\r') && |b| > 0 && b[0] == '\n' {
      assert CrlfAt(a + b, |a| - 1);
    }
  }

  /** Text without a carriage return has no CRLF. */
  lemma NoCrNoCrlf(text: string)
    requires LacksFrom(text, '\r', 0)
    ensures !HasCrlf(text)
  {
  }
}

=== FILE: marker_pattern.dfy ===
/**
 * The regular expressions both ports build to find an existing block,
 * written out as explicit scans. Each has the form
 *
 *     START  gap*?  END  tail*
 *
 * where START and END are the literal marks (the pattern carries them as
 * a mark pair), `gap*?` is a lazy run over one character class and
 * `tail*` a greedy run over another. A match
 * at a position is found by the regex engine's backtracking order:
 * the lazy run stops at the first END it can reach while every character
 * it crosses is in the gap class; the greedy tail then takes every
 * following character of its class (nothing follows it in the pattern,
 * so it never gives any back). A search returns the leftmost position
 * that matches.
 */
module MarkerPattern {
  import opened Wrappers
  import opened Strings
  import opened Markers

  /** The character classes the patterns use. */
  datatype CharClass =
    | AnyChar                   // `.` under re.S, and `[\s\S]`
    | PythonSpace               // `\s` of a Python str pattern
    | JsSpace                   // `\s` of a JavaScript pattern
    | Letters(chars: set<char>) // a literal class such as `[sS]`, or one letter

  /** The characters of Unicode's general category Zs, the space separators. */
  const SpaceSeparators: set<char> :=
    {' ', '\U{A0}', '\U{1680}', '\U{2000}', '\U{2001}', '\U{2002}', '\U{2003}', '\U{2004}', '\U{2005}',
     '\U{2006}', '\U{2007}', '\U{2008}', '\U{2009}', '\U{200A}', '\U{202F}', '\U{205F}', '\U{3000}'}

  /** Python's `\s` on str patterns: the characters for which `str.isspace()` holds. */
  predicate IsPythonSpace(c: char)
  {
    || ('\t' <= c <= '\r')              // \t \n \v \f \r
    || ('\U{1C}' <= c <= '\U{1F}')      // file, group, record and unit separators
    || c == ' ' || c == '\U{85}' || c == '\U{A0}' || c == '\U{1680}'
    || ('\U{2000}' <= c <= '\U{200A}')
    || c == '\U{2028}' || c == '\U{2029}' || c == '\U{202F}' || c == '\U{205F}' || c == '\U{3000}'
  }

  /** JavaScript's `\s`: WhiteSpace and LineTerminator of ECMAScript. */
  predicate IsJsSpace(c: char)
  {
    || ('\t' <= c <= '\r')              // \t \n \v \f \r
    || c == ' ' || c == '\U{A0}' || c == '\U{1680}'
    || ('\U{2000}' <= c <= '\U{200A}')
    || c == '\U{2028}' || c == '\U{2029}' || c == '\U{202F}' || c == '\U{205F}' || c == '\U{3000}'
    || c == '\U{FEFF}'
  }

  /**
   * Python's `\s` is what Python's documentation defines `str.isspace()`
   * to be: the space separators together with the characters of
   * bidirectional class B, S or WS.
   */
  lemma PythonSpaceIsUnicode(c: char)
    ensures IsPythonSpace(c) <==>
      || c in SpaceSeparators
      || c in {'\n', '\r', '\U{1C}', '\U{1D}', '\U{1E}', '\U{85}', '\U{2029}'} // class B
      || c in {'\t', '\U{0B}', '\U{1F}'}                                     // class S
      || c in {'\U{0C}', '\U{2028}'}                                          // class WS, less Zs
  {
  }

  /**
   * JavaScript's `\s` is what ECMAScript defines for the class escape:
   * the WhiteSpace characters (tab, vertical tab, form feed, the byte
   * order mark and the space separators) and the LineTerminator
   * characters.
   */
  lemma JsSpaceIsEcma(c: char)
    ensures IsJsSpace(c) <==>
      || c in {'\t', '\U{0B}', '\U{0C}', '\U{FEFF}'} || c in SpaceSeparators // WhiteSpace
      || c in {'\n', '\r', '\U{2028}', '\U{2029}'}                          // LineTerminator
  {
  }

  /**
   * The two `\s` classes differ only in the four information separators
   * and the next-line character, which Python counts as space, and the
   * byte order mark, which JavaScript does.
   */
  lemma SpaceClassesDiffer(c: char)
    ensures IsPythonSpace(c) && !IsJsSpace(c) <==> '\U{1C}' <= c <= '\U{1F}' || c == '\U{85}'
    ensures IsJsSpace(c) && !IsPythonSpace(c) <==> c == '\U{FEFF}'
  {
  }

  predicate InClass(cls: CharClass, c: char)
  {
    match cls
    case AnyChar => true
    case PythonSpace => IsPythonSpace(c)
    case JsSpace => IsJsSpace(c)
    case Letters(chars) => c in chars
  }

  /** `open gap*? close tail*`, where `open` and `close` are a mark pair. */
  datatype Pattern = Pattern(marks: MarkPair, gap: CharClass, tail: CharClass)

  /** Python: `re.escape(START) + ".*?" + re.escape(END) + "\s*"` with `re.S`. */
  const PythonPattern: Pattern := Pattern(SkillMarks, AnyChar, PythonSpace)

  /**
   * Node as written: the pattern source sits in a template literal, where
   * `\s` and `\S` are not escapes and become the letters `s` and `S`, so
   * the regex compiled is `START[sS]*?ENDs*`.
   */
  const NodePatternAsWritten: Pattern := Pattern(SkillMarks, Letters({'s', 'S'}), Letters({'s'}))

  /** Node as evidently intended: `START[\s\S]*?END\s*`. */
  const NodePatternIntended: Pattern := Pattern(SkillMarks, AnyChar, JsSpace)

  /** Every character of `y` in `[lo, hi)` is in `cls`, and `hi` is inside `y`. */
  predicate AllIn(y: string, cls: CharClass, lo: nat, hi: nat)
  {
    hi <= |y| && forall k :: lo <= k < hi ==> InClass(cls, y[k])
  }

  /**
   * The lazy run `gap*? close` from `pos`: the index where the closing mark
   * begins, the first one reachable across characters of the gap class.
   */
  function LazyScan(y: string, close: string, gap: CharClass, pos: nat): (r: Option<nat>)
    requires pos <= |y|
    ensures r.Some? ==> pos <= r.value && StartsAt(y, close, r.value) && AllIn(y, gap, pos, r.value)
    ensures r.Some? ==> forall k :: pos <= k < r.value ==> !StartsAt(y, close, k)
    ensures r.None? ==> forall q :: pos <= q && StartsAt(y, close, q) ==> !AllIn(y, gap, pos, q)
    decreases |y| - pos
  {
    if StartsAt(y, close, pos) then Some(pos)
    else if pos < |y| && InClass(gap, y[pos]) then LazyScan(y, close, gap, pos + 1)
    else None
  }

  /** The greedy run `tail*` from `pos`: where the maximal run of the class ends. */
  function GreedyRun(y: string, cls: CharClass, pos: nat): (r: nat)
    requires pos <= |y|
    ensures pos <= r && AllIn(y, cls, pos, r)
    ensures r == |y| || !InClass(cls, y[r])
    decreases |y| - pos
  {
    if pos < |y| && InClass(cls, y[pos]) then GreedyRun(y, cls, pos + 1) else pos
  }

  /** Length of the match of `pat` at the start of `y`, if it matches there. */
  function MatchLen(pat: Pattern, y: string): (r: Option<nat>)
    ensures r.Some? ==> StartsAt(y, pat.marks.open, 0) && |pat.marks.open| + |pat.marks.close| <= r.value <= |y|
    ensures r.Some? ==> r.value == |y| || !InClass(pat.tail, y[r.value])
  {
    if StartsAt(y, pat.marks.open, 0) then
      match LazyScan(y, pat.marks.close, pat.gap, |pat.marks.open|)
      case None => None
      case Some(q) => Some(GreedyRun(y, pat.tail, q + |pat.marks.close|))
    else None
  }

  /** A match: where it begins and how many characters it covers. */
  datatype Span = Span(start: nat, len: nat)

  /** The leftmost match of `pat` in `x` at or after `from` (`re.search`). */
  function Find(pat: Pattern, x: string, from: nat): (r: Option<Span>)
    requires from <= |x|
    ensures r.Some? ==> from <= r.value.start && r.value.start + r.value.len <= |x|
    ensures r.Some? ==> MatchLen(pat, x[r.value.start..]) == Some(r.value.len)
    ensures r.Some? ==> forall k :: from <= k < r.value.start ==> MatchLen(pat, x[k..]).None?
    ensures r.None? ==> forall k :: from <= k <= |x| ==> MatchLen(pat, x[k..]).None?
    decreases |x| - from
  {
    var here := MatchLen(pat, x[from..]);
    if here.Some? then Some(Span(from, here.value))
    else if from == |x| then None
    else
      // the scan moves past `from`, where nothing matches
      var rest := Find(pat, x, from + 1);
      assert forall k :: from <= k <= from ==> MatchLen(pat, x[k..]).None?;
      rest
  }

  /**
   * `re.sub` with the block as replacement: every non-overlapping match,
   * leftmost first, becomes `rep`; the search resumes where the previous
   * match ended, which is the same as searching the remaining suffix
   * because the pattern has no anchor and no look-behind.
   */
  function ReplaceAll(pat: Pattern, x: string, rep: string): (r: string)
    ensures Find(pat, x, 0).None? ==> r == x
    ensures Find(pat, x, 0).Some? ==>
      var k := Find(pat, x, 0).value.start;
      k + |rep| <= |r| && r[..k] == x[..k] && r[k..k + |rep|] == rep
    decreases |x|
  {
    match Find(pat, x, 0)
    case None => x
    case Some(sp) =>
      var r := x[..sp.start] + rep + ReplaceAll(pat, x[sp.start + sp.len..], rep);
      assert r[..sp.start] == x[..sp.start];
      assert r[sp.start..sp.start + |rep|] == rep;
      r
  }

  /** `String.prototype.replace` with a non-global regex: the leftmost match only. */
  function ReplaceFirst(pat: Pattern, x: string, rep: string): (r: string)
    ensures Find(pat, x, 0).None? ==> r == x
    ensures Find(pat, x, 0).Some? ==>
      var sp := Find(pat, x, 0).value;
      && |r| == |x| - sp.len + |rep|
      && r[..sp.start] == x[..sp.start]
      && r[sp.start..sp.start + |rep|] == rep
      && r[sp.start + |rep|..] == x[sp.start + sp.len..]
  {
    match Find(pat, x, 0)
    case None => x
    case Some(sp) =>
      var r := x[..sp.start] + rep + x[sp.start + sp.len..];
      assert r[..sp.start] == x[..sp.start];
      assert r[sp.start..sp.start + |rep|] == rep;
      assert r[sp.start + |rep|..] == x[sp.start + sp.len..];
      r
  }

  /** The lazy scan is determined by the first reachable END. */
  lemma LazyScanIs(y: string, close: string, gap: CharClass, pos: nat, q: nat)
    requires pos <= q && StartsAt(y, close, q) && AllIn(y, gap, pos, q)
    requires forall k :: pos <= k < q ==> !StartsAt(y, close, k)
    ensures LazyScan(y, close, gap, pos) == Some(q)
  {
  }

  /** A match is the opening mark, the lazy run to a closing mark, and the greedy tail after it. */
  lemma MatchLenIs(pat: Pattern, y: string, q: nat, r: nat)
    requires StartsAt(y, pat.marks.open, 0)
    requires LazyScan(y, pat.marks.close, pat.gap, |pat.marks.open|) == Some(q)
    requires q + |pat.marks.close| <= |y| && GreedyRun(y, pat.tail, q + |pat.marks.close|) == r
    ensures MatchLen(pat, y) == Some(r)
  {
  }

  /** The search is determined by the leftmost matching position. */
  lemma {:induction false} FindIs(pat: Pattern, x: string, from: nat, k: nat, n: nat)
    requires from <= k <= |x| && MatchLen(pat, x[k..]) == Some(n)
    requires forall j :: from <= j < k ==> MatchLen(pat, x[j..]).None?
    ensures Find(pat, x, from) == Some(Span(k, n))
    decreases k - from
  {
    if from < k {
      assert MatchLen(pat, x[from..]).None?;
      FindIs(pat, x, from + 1, k, n);
    }
  }

  /** Over any character, the lazy scan finds the first END: a substring search. */
  lemma {:induction false} LazyAnyIsIndexOf(y: string, close: string, pos: nat)
    requires pos <= |y|
    ensures LazyScan(y, close, AnyChar, pos) == IndexOf(y, close, pos)
    decreases |y| - pos
  {
    if !StartsAt(y, close, pos) && pos < |y| {
      LazyAnyIsIndexOf(y, close, pos + 1);
    }
  }
}

=== FILE: markers.dfy ===
/**
 * The fixed names and marker lines of the project-management-with-beads
 * skill, as both ports define them at the top of their command-line
 * modules. Paths use the POSIX separator `/`.
 */
module Markers {
  import opened Strings

  const SkillName: string := "project-management-with-beads"
  /** Directory, relative to the repository root, that holds the skill. */
  const SkillDir: seq<string> := [".agent-skills", SkillName]
  const SkillFileName: string := "SKILL.md"

  /** Opens the managed block. */
  const StartMark: string := "<!-- AGENT-SKILL:START " + SkillName + " -->"
  /** Closes the managed block. */
  const EndMark: string := "<!-- AGENT-SKILL:END " + SkillName + " -->"
  /** The pointer line written between the marks. */
  const PointerLine: string := "Use skill at: " + ".agent-skills/" + SkillName + "/" + SkillFileName

  /**
   * The shape of each mark that the block scanner relies on: it opens
   * with `<` and contains no other `<`, contains no line-ending
   * character, so it lies on one line, and closes with `>`.
   */
  ghost predicate MarkShape(m: string)
  {
    && |m| > 0
    && m[0] == '<'
    && LacksFrom(m, '<', 1)
    && LacksFrom(m, '\r', 0)
    && LacksFrom(m, '\n', 0)
    && m[|m| - 1] == '>'
  }

  /**
   * A mark built as `head`, the skill's name and ` -->` has the mark shape
   * whenever `head` opens with its only `<` and stays on one line; both
   * marks are built this way.
   */
  lemma {:induction false} SkillMarkShape(head: string)
    requires |head| > 0 && head[0] == '<'
    requires LacksFrom(head, '<', 1) && LacksFrom(head, '\r', 0) && LacksFrom(head, '\n', 0)
    ensures MarkShape(head + SkillName + " -->")
  {
    assert LacksFrom(SkillName, '<', 0) && LacksFrom(SkillName, '\r', 0) && LacksFrom(SkillName, '\n', 0);
    assert LacksFrom(" -->", '<', 0) && LacksFrom(" -->", '\r', 0) && LacksFrom(" -->", '\n', 0);
    LacksConcat(head, SkillName, '<', 1);
    LacksConcat(head + SkillName, " -->", '<', 1);
    LacksConcat(head, SkillName, '\r', 0);
    LacksConcat(head + SkillName, " -->", '\r', 0);
    LacksConcat(head, SkillName, '\n', 0);
    LacksConcat(head + SkillName, " -->", '\n', 0);
  }

  /** Both marks of the skill have the mark shape. */
  lemma {:induction false} SkillMarksShape()
    ensures MarkShape(StartMark) && MarkShape(EndMark)
  {
    var start := "<!-- AGENT-SKILL:START ";
    var end := "<!-- AGENT-SKILL:END ";
    assert LacksFrom(start, '<', 1) && LacksFrom(start, '\r', 0) && LacksFrom(start, '\n', 0);
    assert LacksFrom(end, '<', 1) && LacksFrom(end, '\r', 0) && LacksFrom(end, '\n', 0);
    SkillMarkShape(start);
    SkillMarkShape(end);
  }

  /** The pointer line contains neither `<` nor a carriage return. */
  lemma {:induction false} PointerLineShape()
    ensures LacksFrom(PointerLine, '<', 0) && LacksFrom(PointerLine, '\r', 0)
  {
    var head := "Use skill at: .agent-skills/";
    var tail := "/" + SkillFileName;
    assert "Use skill at: " + ".agent-skills/" == head;
    assert LacksFrom(head, '<', 0) && LacksFrom(head, '\r', 0);
    assert LacksFrom(SkillName, '<', 0) && LacksFrom(SkillName, '\r', 0);
    assert LacksFrom(tail, '<', 0) && LacksFrom(tail, '\r', 0);
    LacksConcat(head, SkillName, '<', 0);
    LacksConcat(head + SkillName, tail, '<', 0);
    LacksConcat(head, SkillName, '\r', 0);
    LacksConcat(head + SkillName, tail, '\r', 0);
  }

  /** A character missing from every literal piece is missing from both marks and the pointer line. */
  lemma {:induction false} SkillTextLacks(c: char)
    requires LacksFrom("<!-- AGENT-SKILL:START ", c, 0) && LacksFrom("<!-- AGENT-SKILL:END ", c, 0)
    requires LacksFrom(SkillName, c, 0) && LacksFrom(" -->", c, 0)
    requires LacksFrom("Use skill at: .agent-skills/", c, 0) && LacksFrom("/" + SkillFileName, c, 0)
    ensures LacksFrom(StartMark, c, 0) && LacksFrom(EndMark, c, 0) && LacksFrom(PointerLine, c, 0)
  {
    var start := "<!-- AGENT-SKILL:START ";
    var end := "<!-- AGENT-SKILL:END ";
    var head := "Use skill at: .agent-skills/";
    assert PointerLine == head + SkillName + ("/" + SkillFileName);
    LacksConcat(start, SkillName, c, 0);
    LacksConcat(start + SkillName, " -->", c, 0);
    LacksConcat(end, SkillName, c, 0);
    LacksConcat(end + SkillName, " -->", c, 0);
    LacksConcat(head, SkillName, c, 0);
    LacksConcat(head + SkillName, "/" + SkillFileName, c, 0);
  }

  /** A mark pair: the line that opens a managed block and the line that closes it. */
  datatype Marks = Marks(open: string, close: string)

  /** A mark pair whose opening mark is not empty, so that every match consumes text. */
  type MarkPair = m: Marks | m.open != "" witness Marks("<", ">")

  /** The marks of this skill's block. */
  const SkillMarks: MarkPair := Marks(StartMark, EndMark)

  /** The two marks disagree at some index both of them have. */
  ghost predicate Distinct(m: Marks)
  {
    exists d: nat :: d < |m.open| && d < |m.close| && m.open[d] != m.close[d]
  }

  /** Both marks have the mark shape and they are told apart at a common index. */
  ghost predicate WellShaped(m: Marks)
  {
    MarkShape(m.open) && MarkShape(m.close) && Distinct(m)
  }

  /** A body line that the block scanner cannot mistake for part of a mark. */
  ghost predicate BodyShape(body: string)
  {
    LacksFrom(body, '<', 0) && LacksFrom(body, '\r', 0)
  }

  /** The skill's marks and pointer line have the shapes the scanner relies on. */
  lemma {:induction false} SkillShape()
    ensures WellShaped(SkillMarks) && BodyShape(PointerLine)
  {
    SkillMarksShape();
    PointerLineShape();
    assert StartMark[17] == 'S' && EndMark[17] == 'E';
    assert Distinct(SkillMarks) by {
      var d: nat := 17;
      assert d < |StartMark| && d < |EndMark| && StartMark[d] != EndMark[d];
    }
  }

  /** Where the opening mark begins, the closing mark does not. */
  lemma {:induction false} MarksDiffer(m: Marks, x: string, i: nat)
    requires Distinct(m) && StartsAt(x, m.open, i)
    ensures !StartsAt(x, m.close, i)
  {
    var d: nat :| d < |m.open| && d < |m.close| && m.open[d] != m.close[d];
    assert x[i..i + |m.open|][d] == x[i + d];
    if i + |m.close| <= |x| {
      assert x[i..i + |m.close|][d] == x[i + d];
    }
  }
}

=== FILE: narrow_gap.dfy ===
/**
 * Patterns whose lazy gap cannot cross a line ending, such as the
 * `[sS]*?` that the Node port compiles: in a document where every
 * opening mark is directly followed by a line ending, as in every block
 * the injector writes, such a pattern matches nowhere.
 */
module NarrowGap {
  import opened Wrappers
  import opened Strings
  import opened Markers
  import opened LineEndings
  import opened Block
  import opened MarkerPattern
  import opened BlockScan

  /** Every opening mark in `text` is directly followed by `\n` or `\r`. */
  ghost predicate OpensLine(m: Marks, text: string)
  {
    forall k: nat :: StartsAt(text, m.open, k) ==>
      k + |m.open| < |text| && (text[k + |m.open|] == '\n' || text[k + |m.open|] == '\r')
  }

  /** A gap class that holds neither line-ending character. */
  predicate Narrow(cls: CharClass)
  {
    !InClass(cls, '\n') && !InClass(cls, '\r')
  }

  /** Where an opening mark is followed by a line ending, a narrow gap finds no closing mark. */
  lemma {:induction false} NoMatchAtLine(pat: Pattern, y: string)
    requires Narrow(pat.gap) && MarkShape(pat.marks.close)
    requires |pat.marks.open| < |y| && (y[|pat.marks.open|] == '\n' || y[|pat.marks.open|] == '\r')
    ensures MatchLen(pat, y).None?
  {
    StartsAtFirst(y, pat.marks.close, |pat.marks.open|);
  }

  /** With a narrow gap, no match begins at any position of a document in which every opening mark ends its line. */
  lemma {:induction false} NoLineMatchAt(pat: Pattern, text: string, k: nat)
    requires Narrow(pat.gap) && MarkShape(pat.marks.close) && OpensLine(pat.marks, text)
    requires k <= |text|
    ensures MatchLen(pat, text[k..]).None?
  {
    var y := text[k..];
    StartsAtSuffix(text, pat.marks.open, k, 0);
    if StartsAt(y, pat.marks.open, 0) {
      assert y[|pat.marks.open|] == text[k + |pat.marks.open|];
      NoMatchAtLine(pat, y);
    }
  }

  /** With a narrow gap, a document in which every opening mark ends its line holds no match. */
  lemma {:induction false} NoLineMatch(pat: Pattern, text: string)
    requires Narrow(pat.gap) && MarkShape(pat.marks.close) && OpensLine(pat.marks, text)
    ensures Find(pat, text, 0) == None
  {
    forall k: nat | k <= |text|
      ensures MatchLen(pat, text[k..]).None?
    {
      NoLineMatchAt(pat, text, k);
    }
  }

  /** An opening mark cannot begin inside a framed block except at its start. */
  lemma {:induction false} OpenInsideBlock(m: Marks, pre: string, eol: string, body: string, post: string, x: string, k: nat)
    requires WellShaped(m) && ValidEol(eol) && LacksFrom(body, '<', 0)
    requires x == pre + Framed(m, eol, body) + post
    requires |pre| < k < |pre| + |Framed(m, eol, body)|
    ensures !StartsAt(x, m.open, k)
  {
    var f := Framed(m, eol, body);
    if StartsAt(x, m.open, k) {
      StartsAtFirst(x, m.open, k);
      assert x[k] == f[k - |pre|];
      FramedLt(m, eol, body);
      CloseAtEnd(m, pre, eol, body, post);
      MarksDiffer(m, x, k);
    }
  }

  /** The opening mark at the start of a framed block is followed by its line ending. */
  lemma {:induction false} OpenAtBlock(m: Marks, pre: string, eol: string, body: string, post: string, x: string)
    requires ValidEol(eol) && x == pre + Framed(m, eol, body) + post
    ensures |pre| + |m.open| < |x| && (x[|pre| + |m.open|] == '\n' || x[|pre| + |m.open|] == '\r')
  {
    FramedStart(m, eol, body);
    assert x[|pre| + |m.open|] == Framed(m, eol, body)[|m.open|];
  }

  /** No opening mark begins in `pre` when `pre` has none and a `<` follows it. */
  lemma {:induction false} NoOpenInPre(m: Marks, pre: string, eol: string, body: string, post: string, x: string, k: nat)
    requires MarkShape(m.open) && !Contains(pre, m.open) && k < |pre|
    requires x == pre + Framed(m, eol, body) + post
    ensures !StartsAt(x, m.open, k)
  {
    FramedHead(m, eol, body);
    assert x == pre + (Framed(m, eol, body) + post);
    AbsentBeforeSeam(pre, Framed(m, eol, body) + post, m.open, '<', k);
  }

  /** No opening mark begins in `post` when `post` has none. */
  lemma {:induction false} NoOpenInPost(m: Marks, pre: string, eol: string, body: string, post: string, x: string, k: nat)
    requires !Contains(post, m.open) && k >= |pre| + |Framed(m, eol, body)|
    requires x == pre + Framed(m, eol, body) + post
    ensures !StartsAt(x, m.open, k)
  {
    var h := pre + Framed(m, eol, body);
    StartsAtRight(h, post, m.open, k - |h|);
  }

  /**
   * A framed block between text without opening marks leaves its own
   * opening mark as the only one, and that mark ends its line.
   */
  lemma {:induction false} BlockOpensLine(m: Marks, pre: string, eol: string, body: string, post: string, x: string)
    requires WellShaped(m) && ValidEol(eol) && LacksFrom(body, '<', 0)
    requires !Contains(pre, m.open) && !Contains(post, m.open)
    requires x == pre + Framed(m, eol, body) + post
    ensures OpensLine(m, x)
  {
    forall k: nat | StartsAt(x, m.open, k)
      ensures k + |m.open| < |x| && (x[k + |m.open|] == '\n' || x[k + |m.open|] == '\r')
    {
      if k < |pre| {
        NoOpenInPre(m, pre, eol, body, post, x, k);
      } else if k == |pre| {
        OpenAtBlock(m, pre, eol, body, post, x);
      } else if k < |pre| + |Framed(m, eol, body)| {
        OpenInsideBlock(m, pre, eol, body, post, x, k);
      } else {
        NoOpenInPost(m, pre, eol, body, post, x, k);
      }
    }
  }
}

=== FILE: paths.dfy ===
/**
 * Directories and paths as both ports use them: a directory is the list
 * of its components below the file-system root, and a path given by the
 * caller is absolute or relative to the working directory.
 */
module Paths {
  /** A directory as its components below the file-system root; `[]` is the root. */
  type Dir = seq<string>

  /** A path as given by the caller: absolute, or relative to the working directory. */
  datatype Path = Path(absolute: bool, parts: seq<string>)

  /** The directory a path names when the working directory is `cwd`. */
  function Resolve(cwd: Dir, p: Path): Dir
  {
    if p.absolute then p.parts else cwd + p.parts
  }

  /** The parent directory; the root is its own parent, as `path.dirname('/')` is `'/'`. */
  function Dirname(d: Dir): Dir
  {
    if d == [] then [] else d[..|d| - 1]
  }
}

=== FILE: rewrite.dfy ===
/**
 * What one run does to a document that already holds blocks: a dot-all
 * pattern rewrites an existing block whatever its line ending or body,
 * provided the body holds no closing mark, and takes the whitespace after
 * the block along; text without an opening mark is left alone.
 *
 * Each lemma about a concrete document takes the document as a parameter
 * `x` together with the fact that says how it is built, and the block as
 * a parameter `b` with the fact that it is framed, so that the statements
 * stay about `x` itself.
 */
module Rewrite {
  import opened Wrappers
  import opened Strings
  import opened Markers
  import opened LineEndings
  import opened Block
  import opened MarkerPattern
  import opened BlockScan
  import opened Upsert

  /** Text without an opening mark holds no match. */
  lemma {:induction false} NoOpenNoMatch(pat: Pattern, x: string)
    requires !Contains(x, pat.marks.open)
    ensures Find(pat, x, 0) == None
  {
    if Find(pat, x, 0).Some? {
      var k := Find(pat, x, 0).value.start;
      StartsAtSuffix(x, pat.marks.open, k, 0);
      ContainsAt(x, pat.marks.open, k);
    }
  }

  /** Neither substitution changes text without an opening mark. */
  lemma {:induction false} Untouched(pat: Pattern, x: string, rep: string)
    requires !Contains(x, pat.marks.open)
    ensures ReplaceAll(pat, x, rep) == x && ReplaceFirst(pat, x, rep) == x
  {
    NoOpenNoMatch(pat, x);
  }

  /** No closing mark begins at or after the end of any opening mark. */
  ghost predicate NoCloseAfterOpen(m: Marks, x: string)
  {
    forall k: nat, q: nat :: StartsAt(x, m.open, k) && StartsAt(x, m.close, q) ==> q < k + |m.open|
  }

  /** Whatever its gap and tail, a pattern matches nowhere when no closing mark follows an opening one. */
  lemma {:induction false} NoCloseNoMatch(pat: Pattern, x: string)
    requires NoCloseAfterOpen(pat.marks, x)
    ensures Find(pat, x, 0) == None
  {
    if Find(pat, x, 0).Some? {
      var k := Find(pat, x, 0).value.start;
      var y := x[k..];
      var q := LazyScan(y, pat.marks.close, pat.gap, |pat.marks.open|).value;
      StartsAtSuffix(x, pat.marks.open, k, 0);
      StartsAtSuffix(x, pat.marks.close, k, q);
    }
  }

  /** The outer pieces of a four-piece concatenation. */
  lemma {:induction false} OuterOfFour(a: string, b: string, c: string, d: string, x: string)
    requires x == a + b + c + d
    ensures x[..|a|] == a && x[|a| + |b| + |c|..] == d
  {
    assert x[..|a|] == a;
    assert x[|a| + |b| + |c|..] == d;
  }

  /** The non-global replace of a match that covers the two middle pieces of four. */
  lemma {:induction false} ReplaceFirstPieces(pat: Pattern, pre: string, b: string, ws: string, rest: string, rep: string, x: string)
    requires x == pre + b + ws + rest && Find(pat, x, 0) == Some(Span(|pre|, |b| + |ws|))
    ensures ReplaceFirst(pat, x, rep) == pre + rep + rest
  {
    ReplaceFirstAt(pat, x, rep, |pre|, |b| + |ws|);
    OuterOfFour(pre, b, ws, rest, x);
  }

  /** The substitution of every match, where the first covers the two middle pieces of four. */
  lemma {:induction false} ReplaceAllPieces(pat: Pattern, pre: string, b: string, ws: string, rest: string, rep: string, x: string)
    requires x == pre + b + ws + rest && Find(pat, x, 0) == Some(Span(|pre|, |b| + |ws|))
    ensures ReplaceAll(pat, x, rep) == pre + rep + ReplaceAll(pat, rest, rep)
  {
    ReplaceAllAt(pat, x, rep, |pre|, |b| + |ws|);
    OuterOfFour(pre, b, ws, rest, x);
  }

  /**
   * The non-global replace swaps the first block, and the run of tail
   * characters after it, for `rep`, and keeps the text before and after
   * them.
   */
  lemma {:induction false} ReplaceBlockFirst(pat: Pattern, pre: string, eol: string, body: string, b: string, ws: string, rest: string, rep: string, x: string)
    requires DotAll(pat) && ValidEol(eol) && !Contains(body, pat.marks.close) && !Contains(pre, pat.marks.open)
    requires AllIn(ws, pat.tail, 0, |ws|) && (rest == "" || !InClass(pat.tail, rest[0]))
    requires b == Framed(pat.marks, eol, body) && x == pre + b + ws + rest
    ensures ReplaceFirst(pat, x, rep) == pre + rep + rest
  {
    AbsentIff(body, pat.marks.close);
    BlockFound(pat, pre, eol, body, b, ws, rest, x);
    ReplaceFirstPieces(pat, pre, b, ws, rest, rep, x);
  }

  /**
   * The substitution of every match swaps the first block, and the run of
   * tail characters after it, for `rep`, keeps the text before it, and
   * goes on with the text after it.
   */
  lemma {:induction false} ReplaceBlockAll(pat: Pattern, pre: string, eol: string, body: string, b: string, ws: string, rest: string, rep: string, x: string)
    requires DotAll(pat) && ValidEol(eol) && !Contains(body, pat.marks.close) && !Contains(pre, pat.marks.open)
    requires AllIn(ws, pat.tail, 0, |ws|) && (rest == "" || !InClass(pat.tail, rest[0]))
    requires b == Framed(pat.marks, eol, body) && x == pre + b + ws + rest
    ensures ReplaceAll(pat, x, rep) == pre + rep + ReplaceAll(pat, rest, rep)
  {
    AbsentIff(body, pat.marks.close);
    BlockFound(pat, pre, eol, body, b, ws, rest, x);
    ReplaceAllPieces(pat, pre, b, ws, rest, rep, x);
  }
}

=== FILE: stray.dfy ===
/**
 * A document with an opening mark but no closing mark: the guard sends it
 * down the append path, and the next run's dot-all match starts at the
 * stray opening mark and runs through the appended block, so everything
 * after the stray mark is replaced by the block.
 */
module StrayMark {
  import opened Wrappers
  import opened Strings
  import opened Markers
  import opened LineEndings
  import opened Block
  import opened MarkerPattern
  import opened BlockScan
  import opened Upsert

  /** From an opening mark in close-free text, the lazy scan over any character stops at the block's closing mark. */
  lemma {:induction false} LazyThrough(pat: Pattern, pre: string, b: string, e: nat)
    requires MarkShape(pat.marks.close) && Closes(pat, b, e)
    requires |pat.marks.open| <= |pre| && !Contains(pre, pat.marks.close)
    ensures LazyScan(pre + b, pat.marks.close, AnyChar, |pat.marks.open|) == Some(|pre| + e)
  {
    var close := pat.marks.close;
    forall k | |pat.marks.open| <= k < |pre| + e
      ensures !StartsAt(pre + b, close, k)
    {
      NoCloseThrough(pat, pre, b, e, k);
    }
    StartsAtRight(pre, b, close, e);
    LazyScanIs(pre + b, close, AnyChar, |pat.marks.open|, |pre| + e);
  }

  /** No closing mark begins before the block's own, in close-free text followed by the block. */
  lemma {:induction false} NoCloseThrough(pat: Pattern, pre: string, b: string, e: nat, k: nat)
    requires MarkShape(pat.marks.close) && Closes(pat, b, e)
    requires !Contains(pre, pat.marks.close) && k < |pre| + e
    ensures !StartsAt(pre + b, pat.marks.close, k)
  {
    if k < |pre| {
      AbsentBeforeSeam(pre, b, pat.marks.close, '<', k);
    } else {
      StartsAtRight(pre, b, pat.marks.close, k - |pre|);
    }
  }

  /** The tail run after the block's closing mark reaches the end of the document. */
  lemma {:induction false} GreedyThrough(pat: Pattern, pre: string, b: string, e: nat)
    requires Closes(pat, b, e)
    ensures GreedyRun(pre + b, pat.tail, |pre| + e + |pat.marks.close|) == |pre + b|
  {
    var lo := |pre| + e + |pat.marks.close|;
    forall k | lo <= k < |pre + b|
      ensures InClass(pat.tail, (pre + b)[k])
    {
      assert (pre + b)[k] == b[k - |pre|];
    }
    GreedyRunIs(pre + b, pat.tail, lo, |pre + b|);
  }

  /** From an opening mark in close-free text, a dot-all pattern matches through a block after it. */
  lemma {:induction false} MatchThrough(pat: Pattern, pre: string, b: string, e: nat)
    requires DotAll(pat) && Closes(pat, b, e)
    requires StartsAt(pre, pat.marks.open, 0) && !Contains(pre, pat.marks.close)
    ensures MatchLen(pat, pre + b) == Some(|pre + b|)
  {
    StartsAtLeft(pre, b, pat.marks.open, 0);
    LazyThrough(pat, pre, b, e);
    GreedyThrough(pat, pre, b, e);
    MatchLenIs(pat, pre + b, |pre| + e, |pre + b|);
  }

  /** Before the first opening mark of the lead, nothing matches in the lead followed by a block. */
  lemma {:induction false} NoMatchBeforeStray(pat: Pattern, lead: string, b: string, j: nat)
    requires MarkShape(pat.marks.open) && |b| > 0 && b[0] == '<'
    requires IndexOf(lead, pat.marks.open, 0) == Some(j)
    ensures forall i :: 0 <= i < j ==> MatchLen(pat, (lead + b)[i..]).None?
  {
    forall i | 0 <= i < j
      ensures MatchLen(pat, (lead + b)[i..]).None?
    {
      StartsAtSuffix(lead + b, pat.marks.open, i, 0);
      StartsAtBeforeSeam(lead, b, pat.marks.open, '<', i);
    }
  }

  /** The lead from its first opening mark on opens with that mark and holds no closing mark. */
  lemma {:induction false} StrayTail(m: Marks, lead: string, j: nat)
    requires IndexOf(lead, m.open, 0) == Some(j) && !Contains(lead, m.close)
    ensures j <= |lead| && StartsAt(lead[j..], m.open, 0) && !Contains(lead[j..], m.close)
  {
    StartsAtSuffix(lead, m.open, j, 0);
    assert lead[j..|lead|] == lead[j..];
    ContainsSlice(lead, m.close, j, |lead|);
  }

  /**
   * A match to the end is a property of the text it is tried on, however
   * that text was built. It holds without proof; as a lemma it lets a
   * caller move the fact between two spellings of one text without the
   * solver unfolding the match on both.
   */
  lemma MatchLenSame(pat: Pattern, x: string, y: string)
    requires x == y && MatchLen(pat, y) == Some(|y|)
    ensures MatchLen(pat, x) == Some(|x|)
  {
  }

  /** At the lead's first opening mark, the match runs through the block to the end. */
  lemma {:induction false} MatchAtStray(pat: Pattern, lead: string, b: string, e: nat, j: nat)
    requires DotAll(pat) && Closes(pat, b, e)
    requires j <= |lead| && StartsAt(lead[j..], pat.marks.open, 0) && !Contains(lead[j..], pat.marks.close)
    ensures MatchLen(pat, (lead + b)[j..]) == Some(|(lead + b)[j..]|)
  {
    MatchThrough(pat, lead[j..], b, e);
    DropConcat(lead, b, j);
    MatchLenSame(pat, (lead + b)[j..], lead[j..] + b);
  }

  /** The leftmost match starts at `j` and runs to the end of the text. */
  lemma {:induction false} FindToEnd(pat: Pattern, x: string, j: nat)
    requires j <= |x| && MatchLen(pat, x[j..]) == Some(|x[j..]|)
    requires forall i :: 0 <= i < j ==> MatchLen(pat, x[i..]).None?
    ensures Find(pat, x, 0) == Some(Span(j, |x| - j))
  {
    FindIs(pat, x, 0, j, |x| - j);
  }

  /**
   * Behind a lead whose first opening mark is not followed by a closing
   * mark, the match of a block starts at that mark and runs to the end.
   */
  lemma {:induction false} FindStray(pat: Pattern, lead: string, b: string, e: nat, j: nat, x: string)
    requires DotAll(pat) && Closes(pat, b, e) && x == lead + b
    requires IndexOf(lead, pat.marks.open, 0) == Some(j) && !Contains(lead, pat.marks.close)
    ensures j <= |x| && Find(pat, x, 0) == Some(Span(j, |x| - j))
  {
    NoMatchBeforeStray(pat, lead, b, j);
    StrayTail(pat.marks, lead, j);
    MatchAtStray(pat, lead, b, e, j);
    FindToEnd(pat, x, j);
  }

  /**
   * Behind a lead with a stray opening mark at `j`, either substitution
   * cuts the lead followed by the block at `j` and puts the block there.
   */
  lemma {:induction false} CutAtStray(pat: Pattern, lead: string, b: string, e: nat, j: nat, x: string, t: string)
    requires DotAll(pat) && Closes(pat, b, e) && x == lead + b
    requires IndexOf(lead, pat.marks.open, 0) == Some(j) && !Contains(lead, pat.marks.close)
    requires j <= |lead| && x[..j] == t
    ensures ReplaceAll(pat, x, b) == t + b && ReplaceFirst(pat, x, b) == t + b
  {
    FindStray(pat, lead, b, e, j, x);
    ReplaceAllToEnd(pat, x, b, j);
    ReplaceFirstToEnd(pat, x, b, j);
  }

  /** A line ending added after the text keeps its first opening mark first and adds no closing mark. */
  lemma {:induction false} StrayLead(m: Marks, text: string, eol: string, j: nat)
    requires MarkShape(m.open) && MarkShape(m.close) && ValidEol(eol)
    requires IndexOf(text, m.open, 0) == Some(j) && !Contains(text, m.close)
    ensures IndexOf(Lead(text, eol), m.open, 0) == Some(j) && !Contains(Lead(text, eol), m.close)
  {
    if NeedsSeparator(text) {
      EolAddsNoMark(text, eol, m.close);
      StartsAtLeft(text, eol, m.open, j);
      forall k | 0 <= k < j
        ensures !StartsAt(text + eol, m.open, k)
      {
        EolLeadOccurrence(text, eol, m.open, k);
      }
      IndexOfIs(text + eol, m.open, 0, j);
    }
  }

  /** The appended document keeps the text before the stray mark. */
  lemma {:induction false} StrayPrefix(text: string, eol: string, b: string, j: nat)
    requires ValidEol(eol) && j <= |text|
    ensures Append(text, eol, b)[..j] == text[..j]
  {
    TakeConcat(Lead(text, eol), b, j);
    TakeConcat(text, eol, j);
  }

  /**
   * On a document appended behind a stray opening mark, either
   * substitution cuts the document at that mark and puts the block there.
   */
  lemma {:induction false} StrayCut(pat: Pattern, body: string, text: string, eol: string, j: nat)
    requires DotAll(pat) && ValidEol(eol) && LacksFrom(body, '<', 0)
    requires IndexOf(text, pat.marks.open, 0) == Some(j) && !Contains(text, pat.marks.close)
    ensures var b := Framed(pat.marks, eol, body);
      var a := Append(text, eol, b);
      ReplaceAll(pat, a, b) == text[..j] + b && ReplaceFirst(pat, a, b) == text[..j] + b
  {
    var b := Framed(pat.marks, eol, body);
    StrayLead(pat.marks, text, eol, j);
    LacksLead(body, pat.marks.close, '<');
    AbsentIff(body, pat.marks.close);
    FramedClosesAny(pat, eol, body);
    StrayPrefix(text, eol, b, j);
    CutAtStray(pat, Lead(text, eol), b, EndOffset(pat.marks, eol, body), j, Append(text, eol, b), text[..j]);
  }

  /**
   * A document with a stray opening mark and no closing mark: the first
   * run appends the block, and the second replaces everything from the
   * stray mark on by the block, so a second run changes the document.
   */
  lemma {:induction false} StrayRerun(pat: Pattern, body: string, text: string, j: nat)
    requires DotAll(pat) && BodyShape(body)
    requires IndexOf(text, pat.marks.open, 0) == Some(j) && !Contains(text, pat.marks.close)
    ensures var b := Framed(pat.marks, ChooseEol(text), body);
      && UpsertAll(pat, body, UpsertAll(pat, body, text)) == text[..j] + b
      && UpsertFirst(pat, body, UpsertFirst(pat, body, text)) == text[..j] + b
  {
    UpsertKeeps(pat, body, text);
    StrayCut(pat, body, text, ChooseEol(text), j);
  }
}

=== FILE: strings.dfy ===
/**
 * Substring search over `string` (a `seq<char>`), the operations the
 * injector borrows from its host language: `needle in text` in Python,
 * `text.includes(needle)` in JavaScript, and the suffix test of `endswith`.
 */
module Strings {
  import opened Wrappers

  /** `pat` occurs in `s` starting at index `i`. */
  predicate StartsAt(s: string, pat: string, i: nat)
  {
    i + |pat| <= |s| && s[i..i + |pat|] == pat
  }

  /** No character of `s` at index `k` or later is `c`. */
  predicate LacksFrom(s: string, c: char, k: nat)
  {
    forall i :: k <= i < |s| ==> s[i] != c
  }

  /** Index of the first occurrence of `pat` in `s` at or after `from`. */
  function IndexOf(s: string, pat: string, from: nat): (r: Option<nat>)
    ensures r.Some? ==> from <= r.value && StartsAt(s, pat, r.value)
    ensures r.Some? ==> forall j :: from <= j < r.value ==> !StartsAt(s, pat, j)
    ensures r.None? ==> forall j :: from <= j ==> !StartsAt(s, pat, j)
    decreases |s| - from
  {
    if from + |pat| > |s| then None
    else if s[from..from + |pat|] == pat then Some(from)
    else IndexOf(s, pat, from + 1)
  }

  /** Substring test, as computed by scanning from the left. */
  predicate Contains(s: string, pat: string)
  {
    IndexOf(s, pat, 0).Some?
  }

  /** The search is determined by the first occurrence at or after `from`. */
  lemma {:induction false} IndexOfIs(s: string, pat: string, from: nat, k: nat)
    requires from <= k && StartsAt(s, pat, k)
    requires forall j :: from <= j < k ==> !StartsAt(s, pat, j)
    ensures IndexOf(s, pat, from) == Some(k)
    decreases k - from
  {
    if from < k {
      assert !StartsAt(s, pat, from);
      IndexOfIs(s, pat, from + 1, k);
    }
  }

  /** `Contains` agrees with the existence of an occurrence. */
  lemma ContainsIff(s: string, pat: string)
    ensures Contains(s, pat) <==> exists j: nat :: StartsAt(s, pat, j)
  {
    if Contains(s, pat) {
      assert StartsAt(s, pat, IndexOf(s, pat, 0).value);
    }
  }

  /** `pat` occurs nowhere in `s`: the quantified form of `!Contains(s, pat)`. */
  ghost predicate Absent(s: string, pat: string)
  {
    forall j: nat :: !StartsAt(s, pat, j)
  }

  /** `Absent` is the negation of `Contains`. */
  lemma AbsentIff(s: string, pat: string)
    ensures Absent(s, pat) <==> !Contains(s, pat)
  {
    ContainsIff(s, pat);
  }

  /** An occurrence witnesses `Contains`. */
  lemma ContainsAt(s: string, pat: string, j: nat)
    requires StartsAt(s, pat, j)
    ensures Contains(s, pat)
  {
    ContainsIff(s, pat);
  }

  /** `s` is non-empty and its last character is `c`. */
  predicate EndsWithChar(s: string, c: char)
  {
    |s| > 0 && s[|s| - 1] == c
  }

  /** An occurrence inside the left operand of a concatenation. */
  lemma StartsAtLeft(a: string, b: string, pat: string, j: nat)
    requires j + |pat| <= |a|
    ensures StartsAt(a + b, pat, j) <==> StartsAt(a, pat, j)
  {
    assert (a + b)[j..j + |pat|] == a[j..j + |pat|];
  }

  /** An occurrence inside the right operand of a concatenation. */
  lemma StartsAtRight(a: string, b: string, pat: string, j: nat)
    ensures StartsAt(a + b, pat, |a| + j) <==> StartsAt(b, pat, j)
  {
    if j + |pat| <= |b| {
      assert (a + b)[|a| + j..|a| + j + |pat|] == b[j..j + |pat|];
    }
  }

  /** An occurrence in a suffix is an occurrence in the whole, shifted. */
  lemma StartsAtSuffix(s: string, pat: string, k: nat, j: nat)
    requires k <= |s|
    ensures StartsAt(s[k..], pat, j) <==> StartsAt(s, pat, k + j)
  {
    if k + j + |pat| <= |s| {
      assert s[k..][j..j + |pat|] == s[k + j..k + j + |pat|];
    }
  }

  /** An occurrence begins with the pattern's first character. */
  lemma StartsAtFirst(s: string, pat: string, i: nat)
    requires |pat| > 0
    ensures StartsAt(s, pat, i) ==> i < |s| && s[i] == pat[0]
  {
    if StartsAt(s, pat, i) {
      assert s[i..i + |pat|][0] == s[i];
    }
  }

  /**
   * If the character `c` opens `pat` and occurs nowhere else in it, an
   * occurrence of `pat` that begins in `a` cannot run into a `b` that
   * itself begins with `c`.
   */
  lemma {:induction false} NoStraddle(a: string, b: string, pat: string, c: char, j: nat)
    requires |pat| > 0 && pat[0] == c && LacksFrom(pat, c, 1)
    requires |b| > 0 && b[0] == c
    requires j < |a| && StartsAt(a + b, pat, j)
    ensures j + |pat| <= |a|
  {
    assert forall k :: 0 <= k < |pat| ==> (a + b)[j + k] == pat[k];
    assert (a + b)[|a|] == b[0];
  }

  /**
   * The same fact as `NoStraddle`, as an implication: an occurrence that
   * begins before the seam lies wholly in the left operand.
   */
  lemma StartsAtBeforeSeam(a: string, b: string, pat: string, c: char, j: nat)
    requires |pat| > 0 && pat[0] == c && LacksFrom(pat, c, 1)
    requires |b| > 0 && b[0] == c
    ensures StartsAt(a + b, pat, j) && j < |a| ==> StartsAt(a, pat, j)
  {
    if StartsAt(a + b, pat, j) && j < |a| {
      NoStraddle(a, b, pat, c, j);
      StartsAtLeft(a, b, pat, j);
    }
  }

  /** A pattern found in the middle piece is found in the whole. */
  lemma {:induction false} ContainsInside(pre: string, mid: string, post: string, pat: string)
    requires Contains(mid, pat)
    ensures Contains(pre + mid + post, pat)
  {
    var s := pre + mid + post;
    assert s[|pre|..|pre| + |mid|] == mid;
    ContainsSlice(s, pat, |pre|, |pre| + |mid|);
  }

  /** A text without the lead character of `pat` does not contain `pat`. */
  lemma {:induction false} LacksLead(s: string, pat: string, c: char)
    requires |pat| > 0 && pat[0] == c && LacksFrom(s, c, 0)
    ensures !Contains(s, pat)
  {
    ContainsIff(s, pat);
    if Contains(s, pat) {
      var j: nat :| StartsAt(s, pat, j);
      StartsAtFirst(s, pat, j);
    }
  }

  // The sequence facts below hold without proof. They are separate lemmas
  // so that a caller brings in only the one fact it needs, which keeps the
  // solver's work on the callers small.

  /** Appending nothing leaves a text as it is. */
  lemma AppendEmpty(s: string)
    ensures s + "" == s
  {
  }

  /** Dropping a prefix of the left piece of a concatenation. */
  lemma DropConcat(a: string, b: string, j: nat)
    requires j <= |a|
    ensures (a + b)[j..] == a[j..] + b
  {
  }

  /** Taking a prefix of the left piece of a concatenation. */
  lemma TakeConcat(a: string, b: string, j: nat)
    requires j <= |a|
    ensures (a + b)[..j] == a[..j]
  {
  }

  /** A text is the concatenation of its three pieces around two cut points. */
  lemma SplitThree(s: string, i: nat, j: nat)
    requires i <= j <= |s|
    ensures s == s[..i] + s[i..j] + s[j..]
  {
  }

  /** A pattern absent from `a` does not begin inside `a` in `a + b` when `b` opens with its lead character. */
  lemma {:induction false} AbsentBeforeSeam(a: string, b: string, pat: string, c: char, j: nat)
    requires |pat| > 0 && pat[0] == c && LacksFrom(pat, c, 1)
    requires |b| > 0 && b[0] == c
    requires j < |a| && !Contains(a, pat)
    ensures !StartsAt(a + b, pat, j)
  {
    if StartsAt(a + b, pat, j) {
      NoStraddle(a, b, pat, c, j);
      StartsAtLeft(a, b, pat, j);
      ContainsAt(a, pat, j);
    }
  }

  /** An occurrence in a slice is an occurrence in the whole. */
  lemma ContainsSlice(s: string, pat: string, lo: nat, hi: nat)
    requires lo <= hi <= |s|
    ensures Contains(s[lo..hi], pat) ==> Contains(s, pat)
  {
    if Contains(s[lo..hi], pat) {
      ContainsIff(s[lo..hi], pat);
      var j: nat :| StartsAt(s[lo..hi], pat, j);
      assert j + |pat| <= hi - lo;
      forall t | 0 <= t < |pat|
        ensures s[lo + j + t] == pat[t]
      {
        assert s[lo..hi][j..j + |pat|][t] == s[lo + j + t];
      }
      assert s[lo + j..lo + j + |pat|] == pat;
      ContainsAt(s, pat, lo + j);
    }
  }

  /** A prefix that ends before the first occurrence holds no occurrence. */
  lemma PrefixBeforeFirst(s: string, pat: string, k: nat)
    requires k <= |s| && |pat| > 0
    requires forall j: nat :: j < k ==> !StartsAt(s, pat, j)
    ensures !Contains(s[..k], pat)
  {
    ContainsIff(s[..k], pat);
    assert s == s[..k] + s[k..];
    forall j: nat | j + |pat| <= k
      ensures !StartsAt(s[..k], pat, j)
    {
      StartsAtLeft(s[..k], s[k..], pat, j);
    }
  }

  /** Concatenation keeps a character out of both halves. */
  lemma LacksConcat(a: string, b: string, c: char, k: nat)
    requires k <= |a| && LacksFrom(a, c, k) && LacksFrom(b, c, 0)
    ensures LacksFrom(a + b, c, k)
  {
    forall i | k <= i < |a + b|
      ensures (a + b)[i] != c
    {
      if i >= |a| {
        assert (a + b)[i] == b[i - |a|];
      }
    }
  }
}

=== FILE: sync.dfy ===
/**
 * The `sync` command of both ports: find the repository root from the
 * given directory, or the working directory, and copy the packaged
 * skill's bytes through the atomic write to
 * `<root>/.agent-skills/project-management-with-beads/SKILL.md`.
 * The packaged bytes are an input; where they are loaded from is not
 * part of this model.
 */
module Sync {
  import opened Wrappers
  import opened Markers
  import opened Paths
  import opened FileSystem
  import opened GitRoot
  import opened AtomicWrite

  /** Where the skill is written below a root: `SKILL_REL_PATH / SKILL_FILE_NAME`. */
  function SkillTarget(base: Dir): (t: Dir)
    ensures |t| == |base| + 3 && t[..|base|] == base
    ensures t[|base|..] == [".agent-skills", "project-management-with-beads", "SKILL.md"]
  {
    base + SkillDir + [SkillFileName]
  }

  /** The directories of `fs` that hold an entry named `.git`. */
  function GitDirs(fs: FS): set<Dir>
  {
    set p | p in fs && |p| > 0 && p[|p| - 1] == ".git" :: p[..|p| - 1]
  }

  /** A directory is in `GitDirs(fs)` exactly when it holds `.git`, a directory or a file alike. */
  lemma {:induction false} GitDirsIff(fs: FS)
    ensures forall d :: d in GitDirs(fs) <==> d + [".git"] in fs
  {
    forall d | d + [".git"] in fs
      ensures d in GitDirs(fs)
    {
      var p := d + [".git"];
      assert p[..|p| - 1] == d;
    }
    forall d | d in GitDirs(fs)
      ensures d + [".git"] in fs
    {
      var p :| p in fs && |p| > 0 && p[|p| - 1] == ".git" && p[..|p| - 1] == d;
      assert p == d + [".git"];
    }
  }

  /**
   * Where the walk starts: the `repo` option, or the working directory.
   * Without the option the start is absolute and names the working
   * directory; with it, the start names what the option names.
   */
  function StartPath(cwd: Dir, repo: Option<Path>): (p: Path)
    ensures repo.None? ==> p.absolute && Resolve(cwd, p) == cwd
    ensures repo.Some? ==> Resolve(cwd, p) == Resolve(cwd, repo.value)
  {
    match repo
    case None => Path(true, cwd)
    case Some(p) => p
  }

  /** `sync` of the Python port: the target is below the root `_git_root` answers. */
  function PySync(cwd: Dir, fs: FS, repo: Option<Path>, skill: Bytes): (r: Option<FS>)
    ensures var target := SkillTarget(Resolve(cwd, PyGitRoot(cwd, GitDirs(fs), StartPath(cwd, repo))));
      && (r.Some? <==> Writable(fs, target))
      && (r.Some? ==> Lookup(r.value, target) == Some(File(skill)))
      && (r.Some? ==> forall p :: p in fs && p != target && p != TmpPath(target) ==> p in r.value && r.value[p] == fs[p])
  {
    var base := PyGitRoot(cwd, GitDirs(fs), StartPath(cwd, repo));
    WriteAtomic(fs, SkillTarget(Resolve(cwd, base)), skill)
  }

  /** `cmdSync` of the Node port: the target is below the root `gitRoot` answers. */
  method NodeSync(cwd: Dir, fs: FS, repo: Option<Path>, skill: Bytes) returns (r: Option<FS>)
    ensures var target := SkillTarget(NodeRoot(GitDirs(fs), Resolve(cwd, StartPath(cwd, repo))));
      && (r.Some? <==> Writable(fs, target))
      && (r.Some? ==> Lookup(r.value, target) == Some(File(skill)))
      && (r.Some? ==> forall p :: p in fs && p != target && p != TmpPath(target) ==> p in r.value && r.value[p] == fs[p])
    ensures r == WriteAtomic(fs, SkillTarget(NodeRoot(GitDirs(fs), Resolve(cwd, StartPath(cwd, repo)))), skill)
  {
    var base := NodeGitRoot(cwd, GitDirs(fs), StartPath(cwd, repo));
    r := WriteAtomic(fs, SkillTarget(base), skill);
  }

  /** Without a `repo` option, or with an absolute one, both ports write the same file system. */
  lemma {:induction false} SyncPortsAgree(cwd: Dir, fs: FS, repo: Option<Path>, skill: Bytes)
    requires repo.None? || repo.value.absolute
    ensures PySync(cwd, fs, repo, skill)
      == WriteAtomic(fs, SkillTarget(NodeRoot(GitDirs(fs), Resolve(cwd, StartPath(cwd, repo)))), skill)
  {
    RootsAgreeOnAbsolute(cwd, GitDirs(fs), StartPath(cwd, repo));
  }
}

=== FILE: upsert.dfy ===
/**
 * The block upsert both ports perform, for any mark pair and body line:
 * choose the line ending, frame the body with it, then either rewrite the
 * existing block through the pattern or append the framed block.
 *
 * Python's `inject` rewrites every match (`re.sub`); Node's rewrites the
 * leftmost one (`String.prototype.replace` with a non-global regex).
 */
module Upsert {
  import opened Wrappers
  import opened Strings
  import opened Markers
  import opened LineEndings
  import opened Block
  import opened MarkerPattern
  import opened BlockScan

  /** Both marks occur somewhere in the text: the guard of the replace path. */
  predicate HasMarks(m: Marks, text: string)
  {
    Contains(text, m.open) && Contains(text, m.close)
  }

  /**
   * A pattern of the intended kind: its gap crosses any character, its
   * tail takes line endings but not `<`, and its marks have the mark shape.
   */
  ghost predicate DotAll(pat: Pattern)
  {
    && pat.gap == AnyChar
    && InClass(pat.tail, '\n') && InClass(pat.tail, '\r') && !InClass(pat.tail, '<')
    && WellShaped(pat.marks)
  }

  /**
   * The upsert with substitution of every match (Python's `inject`): with
   * both marks present the first block found is replaced and the text
   * before it kept; with both present but no block found the text is
   * kept; otherwise the block is appended after the text.
   */
  function UpsertAll(pat: Pattern, body: string, text: string): (r: string)
    ensures !HasMarks(pat.marks, text) ==>
      var block := Framed(pat.marks, ChooseEol(text), body);
      |text| + |block| <= |r| && r[..|text|] == text && r[|r| - |block|..] == block
    ensures HasMarks(pat.marks, text) && Find(pat, text, 0).None? ==> r == text
    ensures HasMarks(pat.marks, text) && Find(pat, text, 0).Some? ==>
      var k := Find(pat, text, 0).value.start;
      var block := Framed(pat.marks, ChooseEol(text), body);
      k + |block| <= |r| && r[..k] == text[..k] && r[k..k + |block|] == block
  {
    var eol := ChooseEol(text);
    var block := Framed(pat.marks, eol, body);
    if HasMarks(pat.marks, text) then ReplaceAll(pat, text, block) else Append(text, eol, block)
  }

  /** The upsert with substitution of the leftmost match (Node's `inject`), with the same promises. */
  function UpsertFirst(pat: Pattern, body: string, text: string): (r: string)
    ensures !HasMarks(pat.marks, text) ==>
      var block := Framed(pat.marks, ChooseEol(text), body);
      |text| + |block| <= |r| && r[..|text|] == text && r[|r| - |block|..] == block
    ensures HasMarks(pat.marks, text) && Find(pat, text, 0).None? ==> r == text
    ensures HasMarks(pat.marks, text) && Find(pat, text, 0).Some? ==>
      var k := Find(pat, text, 0).value.start;
      var block := Framed(pat.marks, ChooseEol(text), body);
      k + |block| <= |r| && r[..k] == text[..k] && r[k..k + |block|] == block
  {
    var eol := ChooseEol(text);
    var block := Framed(pat.marks, eol, body);
    if HasMarks(pat.marks, text) then ReplaceFirst(pat, text, block) else Append(text, eol, block)
  }

  // ---------------------------------------------------------------------
  // Where a match of a dot-all pattern begins
  // ---------------------------------------------------------------------

  /**
   * With a gap that admits every character, an opening mark before a
   * matching position matches too: the closing mark that ended the later
   * match ends it.
   */
  lemma {:induction false} EarlierStartMatches(pat: Pattern, x: string, j: nat, k: nat)
    requires pat.gap == AnyChar && j <= k <= |x|
    ensures StartsAt(x, pat.marks.open, j) && MatchLen(pat, x[k..]).Some? ==> MatchLen(pat, x[j..]).Some?
  {
    var open, close := pat.marks.open, pat.marks.close;
    if StartsAt(x, open, j) && MatchLen(pat, x[k..]).Some? {
      var z := x[k..];
      LazyAnyIsIndexOf(z, close, |open|);
      var q := LazyScan(z, close, AnyChar, |open|).value;
      StartsAtSuffix(x, close, k, q);
      var w := x[j..];
      StartsAtSuffix(x, open, j, 0);
      StartsAtSuffix(x, close, j, k + q - j);
      LazyAnyIsIndexOf(w, close, |open|);
    }
  }

  /** A dot-all match begins at the first opening mark, so the text before it holds none. */
  lemma {:induction false} MatchAtFirstStart(pat: Pattern, x: string)
    requires pat.gap == AnyChar && Find(pat, x, 0).Some?
    ensures IndexOf(x, pat.marks.open, 0) == Some(Find(pat, x, 0).value.start)
    ensures !Contains(x[..Find(pat, x, 0).value.start], pat.marks.open)
  {
    var open := pat.marks.open;
    var k := Find(pat, x, 0).value.start;
    StartsAtSuffix(x, open, k, 0);
    var i := IndexOf(x, open, 0).value;
    EarlierStartMatches(pat, x, i, k);
    PrefixBeforeFirst(x, open, k);
  }

  // ---------------------------------------------------------------------
  // One step of each substitution
  // ---------------------------------------------------------------------

  /** One step of `re.sub`: the text before the match, the replacement, then the rest rewritten. */
  lemma {:induction false} ReplaceAllAt(pat: Pattern, x: string, rep: string, k: nat, n: nat)
    requires Find(pat, x, 0) == Some(Span(k, n))
    ensures ReplaceAll(pat, x, rep) == x[..k] + rep + ReplaceAll(pat, x[k + n..], rep)
  {
  }

  /** The single step of a non-global replace. */
  lemma {:induction false} ReplaceFirstAt(pat: Pattern, x: string, rep: string, k: nat, n: nat)
    requires Find(pat, x, 0) == Some(Span(k, n))
    ensures ReplaceFirst(pat, x, rep) == x[..k] + rep + x[k + n..]
  {
  }

  /** `re.sub` of a text whose leftmost match runs to its end. */
  lemma {:induction false} ReplaceAllToEnd(pat: Pattern, x: string, rep: string, j: nat)
    requires j <= |x| && Find(pat, x, 0) == Some(Span(j, |x| - j))
    requires |rep| > 0 && rep[0] == '<'
    ensures ReplaceAll(pat, x, rep) == x[..j] + rep
  {
    ReplaceAllAt(pat, x, rep, j, |x| - j);
    ReplaceAllHead(pat, x[|x|..], rep);
  }

  /** A non-global replace of a text whose leftmost match runs to its end. */
  lemma {:induction false} ReplaceFirstToEnd(pat: Pattern, x: string, rep: string, j: nat)
    requires j <= |x| && Find(pat, x, 0) == Some(Span(j, |x| - j))
    ensures ReplaceFirst(pat, x, rep) == x[..j] + rep
  {
    ReplaceFirstAt(pat, x, rep, j, |x| - j);
    AppendEmpty(x[..j] + rep);
  }

  /** What follows a match does not open with a tail character. */
  lemma {:induction false} AfterMatchNotTail(pat: Pattern, x: string, k: nat, n: nat)
    requires Find(pat, x, 0) == Some(Span(k, n))
    ensures k + n <= |x|
    ensures x[k + n..] == "" || !InClass(pat.tail, x[k + n..][0])
  {
    assert x[k + n..] != "" ==> x[k + n..][0] == x[k..][n];
  }

  /** What `re.sub` makes of the text after a match does not open with a tail character. */
  lemma {:induction false} RestNotTail(pat: Pattern, x: string, rep: string, k: nat, n: nat)
    requires !InClass(pat.tail, '<') && |rep| > 0 && rep[0] == '<'
    requires Find(pat, x, 0) == Some(Span(k, n))
    ensures k + n <= |x|
    ensures var rr := ReplaceAll(pat, x[k + n..], rep);
      rr == "" || !InClass(pat.tail, rr[0])
  {
    AfterMatchNotTail(pat, x, k, n);
    ReplaceAllHead(pat, x[k + n..], rep);
  }

  // ---------------------------------------------------------------------
  // Fixed points
  // ---------------------------------------------------------------------

  /**
   * After the leftmost match is rewritten to a framed block, and what follows
   * does not open with a tail character, the leftmost match is that block.
   */
  lemma {:induction false} RewrittenFind(pat: Pattern, body: string, eol: string, x: string, k: nat, n: nat, rest: string)
    requires DotAll(pat) && ValidEol(eol) && LacksFrom(body, '<', 0)
    requires Find(pat, x, 0) == Some(Span(k, n))
    requires rest == "" || !InClass(pat.tail, rest[0])
    ensures Find(pat, x[..k] + Framed(pat.marks, eol, body) + rest, 0) == Some(Span(k, |Framed(pat.marks, eol, body)|))
  {
    var pre := x[..k];
    var b := Framed(pat.marks, eol, body);
    MatchAtFirstStart(pat, x);
    LacksLead(body, pat.marks.close, '<');
    AbsentIff(body, pat.marks.close);
    AppendEmpty(pre + b);
    BlockFound(pat, pre, eol, body, b, "", rest, pre + b + rest);
  }

  /** A leftmost match that already reads `rep` is left as it is by a non-global replace. */
  lemma {:induction false} ReplaceFirstFixed(pat: Pattern, y: string, rep: string, k: nat)
    requires Find(pat, y, 0) == Some(Span(k, |rep|)) && y[k..k + |rep|] == rep
    ensures ReplaceFirst(pat, y, rep) == y
  {
    ReplaceFirstAt(pat, y, rep, k, |rep|);
    SplitThree(y, k, k + |rep|);
  }

  /** `re.sub` leaves a leftmost match that reads `rep` when it leaves the rest. */
  lemma {:induction false} ReplaceAllFixed(pat: Pattern, y: string, rep: string, k: nat)
    requires Find(pat, y, 0) == Some(Span(k, |rep|)) && y[k..k + |rep|] == rep
    requires ReplaceAll(pat, y[k + |rep|..], rep) == y[k + |rep|..]
    ensures ReplaceAll(pat, y, rep) == y
  {
    ReplaceAllAt(pat, y, rep, k, |rep|);
    SplitThree(y, k, k + |rep|);
  }

  /** The text a rewrite of the leftmost match leaves: its match is the block, at the same place. */
  lemma {:induction false} RewriteFound(pat: Pattern, body: string, eol: string, x: string, k: nat, n: nat, rest: string)
    requires DotAll(pat) && ValidEol(eol) && LacksFrom(body, '<', 0)
    requires Find(pat, x, 0) == Some(Span(k, n))
    requires rest == "" || !InClass(pat.tail, rest[0])
    ensures var b := Framed(pat.marks, eol, body);
      var y := x[..k] + b + rest;
      Find(pat, y, 0) == Some(Span(k, |b|)) && y[k..k + |b|] == b && y[k + |b|..] == rest
  {
    RewrittenFind(pat, body, eol, x, k, n, rest);
    var b := Framed(pat.marks, eol, body);
    var y := x[..k] + b + rest;
    assert y[k..k + |b|] == b && y[k + |b|..] == rest;
  }

  /** `re.sub` with a framed block is idempotent: its output is a fixed point. */
  lemma {:induction false} ReplaceAllIdempotent(pat: Pattern, body: string, x: string, eol: string)
    requires DotAll(pat) && ValidEol(eol) && LacksFrom(body, '<', 0)
    ensures var b := Framed(pat.marks, eol, body);
      ReplaceAll(pat, ReplaceAll(pat, x, b), b) == ReplaceAll(pat, x, b)
    decreases |x|
  {
    var b := Framed(pat.marks, eol, body);
    var f := Find(pat, x, 0);
    if f.Some? {
      var k, n := f.value.start, f.value.len;
      ReplaceAllAt(pat, x, b, k, n);
      var rr := ReplaceAll(pat, x[k + n..], b);
      ReplaceAllIdempotent(pat, body, x[k + n..], eol);
      FramedHead(pat.marks, eol, body);
      RestNotTail(pat, x, b, k, n);
      RewriteFound(pat, body, eol, x, k, n, rr);
      ReplaceAllFixed(pat, x[..k] + b + rr, b, k);
    }
  }

  /** A non-global replace with a framed block is idempotent too. */
  lemma {:induction false} ReplaceFirstIdempotent(pat: Pattern, body: string, x: string, eol: string)
    requires DotAll(pat) && ValidEol(eol) && LacksFrom(body, '<', 0)
    ensures var b := Framed(pat.marks, eol, body);
      ReplaceFirst(pat, ReplaceFirst(pat, x, b), b) == ReplaceFirst(pat, x, b)
  {
    var b := Framed(pat.marks, eol, body);
    var f := Find(pat, x, 0);
    if f.Some? {
      var k, n := f.value.start, f.value.len;
      ReplaceFirstAt(pat, x, b, k, n);
      AfterMatchNotTail(pat, x, k, n);
      RewriteFound(pat, body, eol, x, k, n, x[k + n..]);
      ReplaceFirstFixed(pat, x[..k] + b + x[k + n..], b, k);
    }
  }

  // ---------------------------------------------------------------------
  // The line ending survives a run
  // ---------------------------------------------------------------------

  /** Cutting a CRLF-free text leaves CRLF-free pieces. */
  lemma {:induction false} NoCrlfPieces(x: string, k: nat, e: nat)
    requires k <= e <= |x| && !HasCrlf(x)
    ensures !HasCrlf(x[..k]) && !HasCrlf(x[e..])
  {
    assert x == x[..k] + x[k..];
    HasCrlfConcat(x[..k], x[k..]);
    assert x[k..] == x[k..e] + x[e..];
    HasCrlfConcat(x[k..e], x[e..]);
  }

  /**
   * A CRLF-free replacement that neither opens with `\n` nor closes with
   * `\r` makes no CRLF between CRLF-free texts.
   */
  lemma {:induction false} NoCrlfAround(pre: string, rep: string, post: string)
    requires !HasCrlf(pre) && !HasCrlf(rep) && !HasCrlf(post)
    requires |rep| > 0 && rep[0] != '\n' && rep[|rep| - 1] != '\r'
    ensures !HasCrlf(pre + rep + post)
  {
    HasCrlfConcat(pre, rep);
    assert (pre + rep)[|pre + rep| - 1] == rep[|rep| - 1];
    HasCrlfConcat(pre + rep, post);
  }

  /** Rewriting `x[k..e]` to such a replacement, and the rest to a CRLF-free text, makes no CRLF. */
  lemma {:induction false} NoCrlfSplice(x: string, k: nat, e: nat, rep: string, post: string)
    requires k <= e <= |x| && !HasCrlf(x) && !HasCrlf(rep) && !HasCrlf(post)
    requires |rep| > 0 && rep[0] != '\n' && rep[|rep| - 1] != '\r'
    ensures !HasCrlf(x[..k] + rep + post)
  {
    NoCrlfPieces(x, k, e);
    NoCrlfAround(x[..k], rep, post);
  }

  /** Writing the framed block over `x[k..e]` keeps the line ending detected in `x`. */
  lemma {:induction false} SpliceKeepsEol(m: Marks, body: string, x: string, k: nat, e: nat)
    requires WellShaped(m) && BodyShape(body) && k <= e <= |x|
    ensures var eol := ChooseEol(x);
      ChooseEol(x[..k] + Framed(m, eol, body) + x[e..]) == eol
  {
    var eol := ChooseEol(x);
    var b := Framed(m, eol, body);
    FramedCrlf(m, eol, body);
    if eol == CRLF {
      CrlfInside(x[..k], b, x[e..]);
    } else {
      FramedLayout(m, eol, body);
      NoCrlfPieces(x, k, e);
      NoCrlfAround(x[..k], b, x[e..]);
    }
  }

  /** A replacement that cannot make a CRLF: it has none, and none can form at its edges. */
  ghost predicate CrlfProof(rep: string)
  {
    !HasCrlf(rep) && |rep| > 0 && rep[0] != '\n' && rep[|rep| - 1] != '\r'
  }

  /** One step of `re.sub` makes no CRLF when the rewritten rest has none. */
  lemma {:induction false} NoCrlfStep(pat: Pattern, x: string, rep: string, k: nat, n: nat)
    requires Find(pat, x, 0) == Some(Span(k, n)) && !HasCrlf(x) && CrlfProof(rep)
    requires !HasCrlf(ReplaceAll(pat, x[k + n..], rep))
    ensures !HasCrlf(ReplaceAll(pat, x, rep))
  {
    ReplaceAllAt(pat, x, rep, k, n);
    NoCrlfSplice(x, k, k + n, rep, ReplaceAll(pat, x[k + n..], rep));
  }

  /** A CRLF-free replacement never turns an LF document into a CRLF one. */
  lemma {:induction false} ReplaceAllNoCrlf(pat: Pattern, x: string, rep: string)
    requires !HasCrlf(x) && CrlfProof(rep)
    ensures !HasCrlf(ReplaceAll(pat, x, rep))
    decreases |x|
  {
    match Find(pat, x, 0)
    case None =>
    case Some(sp) =>
      NoCrlfPieces(x, sp.start, sp.start + sp.len);
      ReplaceAllNoCrlf(pat, x[sp.start + sp.len..], rep);
      NoCrlfStep(pat, x, rep, sp.start, sp.len);
  }

  /** A text that holds a CRLF keeps it with anything around it. */
  lemma {:induction false} CrlfInside(pre: string, mid: string, post: string)
    requires HasCrlf(mid)
    ensures HasCrlf(pre + mid + post)
  {
    HasCrlfConcat(pre, mid);
    HasCrlfConcat(pre + mid, post);
  }

  /** A CRLF document keeps a CRLF once a CRLF replacement is written into it. */
  lemma {:induction false} ReplaceAllKeepsCrlf(pat: Pattern, x: string, rep: string)
    requires HasCrlf(x) && HasCrlf(rep)
    ensures HasCrlf(ReplaceAll(pat, x, rep))
  {
    var f := Find(pat, x, 0);
    if f.Some? {
      var k, n := f.value.start, f.value.len;
      ReplaceAllAt(pat, x, rep, k, n);
      CrlfInside(x[..k], rep, ReplaceAll(pat, x[k + n..], rep));
    }
  }

  /** `re.sub` keeps the line ending the upsert detects. */
  lemma {:induction false} ReplaceAllKeepsEol(pat: Pattern, body: string, text: string)
    requires WellShaped(pat.marks) && BodyShape(body)
    ensures ChooseEol(ReplaceAll(pat, text, Framed(pat.marks, ChooseEol(text), body))) == ChooseEol(text)
  {
    var eol := ChooseEol(text);
    var b := Framed(pat.marks, eol, body);
    FramedCrlf(pat.marks, eol, body);
    FramedLayout(pat.marks, eol, body);
    if eol == CRLF {
      ReplaceAllKeepsCrlf(pat, text, b);
    } else {
      ReplaceAllNoCrlf(pat, text, b);
    }
  }

  /** The non-global replace keeps the line ending the upsert detects. */
  lemma {:induction false} ReplaceFirstKeepsEol(pat: Pattern, body: string, text: string)
    requires WellShaped(pat.marks) && BodyShape(body)
    ensures ChooseEol(ReplaceFirst(pat, text, Framed(pat.marks, ChooseEol(text), body))) == ChooseEol(text)
  {
    var f := Find(pat, text, 0);
    if f.Some? {
      var k, n := f.value.start, f.value.len;
      ReplaceFirstAt(pat, text, Framed(pat.marks, ChooseEol(text), body), k, n);
      SpliceKeepsEol(pat.marks, body, text, k, k + n);
    }
  }

  /** Appending the framed block keeps the line ending the upsert detects. */
  lemma {:induction false} AppendKeepsEol(m: Marks, body: string, text: string)
    requires WellShaped(m) && BodyShape(body)
    ensures var eol := ChooseEol(text);
      ChooseEol(Append(text, eol, Framed(m, eol, body))) == eol
  {
    var eol := ChooseEol(text);
    var b := Framed(m, eol, body);
    FramedCrlf(m, eol, body);
    FramedLayout(m, eol, body);
    if NeedsSeparator(text) {
      HasCrlfConcat(text, eol);
    }
    HasCrlfConcat(Lead(text, eol), b);
  }

  // ---------------------------------------------------------------------
  // The marks survive a run
  // ---------------------------------------------------------------------

  /** Text around a framed block carries both marks. */
  lemma {:induction false} FramedGivesMarks(m: Marks, pre: string, eol: string, body: string, post: string)
    requires ValidEol(eol)
    ensures HasMarks(m, pre + Framed(m, eol, body) + post)
  {
    var b := Framed(m, eol, body);
    FramedStart(m, eol, body);
    FramedEnd(m, eol, body);
    ContainsAt(b, m.open, 0);
    ContainsAt(b, m.close, EndOffset(m, eol, body));
    ContainsInside(pre, b, post, m.open);
    ContainsInside(pre, b, post, m.close);
  }

  /** The appended block supplies both marks. */
  lemma {:induction false} AppendGivesMarks(m: Marks, body: string, text: string, eol: string)
    requires ValidEol(eol)
    ensures HasMarks(m, Append(text, eol, Framed(m, eol, body)))
  {
    FramedGivesMarks(m, Lead(text, eol), eol, body, "");
    assert Append(text, eol, Framed(m, eol, body)) == Lead(text, eol) + Framed(m, eol, body) + "";
  }

  /** `re.sub` keeps both marks in a text that has them. */
  lemma {:induction false} ReplaceAllKeepsMarks(pat: Pattern, body: string, x: string, eol: string)
    requires ValidEol(eol) && HasMarks(pat.marks, x)
    ensures HasMarks(pat.marks, ReplaceAll(pat, x, Framed(pat.marks, eol, body)))
  {
    match Find(pat, x, 0)
    case None =>
    case Some(sp) =>
      var b := Framed(pat.marks, eol, body);
      ReplaceAllAt(pat, x, b, sp.start, sp.len);
      FramedGivesMarks(pat.marks, x[..sp.start], eol, body, ReplaceAll(pat, x[sp.start + sp.len..], b));
  }

  /** The non-global replace keeps both marks in a text that has them. */
  lemma {:induction false} ReplaceFirstKeepsMarks(pat: Pattern, body: string, x: string, eol: string)
    requires ValidEol(eol) && HasMarks(pat.marks, x)
    ensures HasMarks(pat.marks, ReplaceFirst(pat, x, Framed(pat.marks, eol, body)))
  {
    match Find(pat, x, 0)
    case None =>
    case Some(sp) =>
      ReplaceFirstAt(pat, x, Framed(pat.marks, eol, body), sp.start, sp.len);
      FramedGivesMarks(pat.marks, x[..sp.start], eol, body, x[sp.start + sp.len..]);
  }

  // ---------------------------------------------------------------------
  // The upsert
  // ---------------------------------------------------------------------

  /**
   * A block appended behind text free of opening marks is matched exactly
   * by a dot-all pattern, so either substitution leaves the result as it is.
   */
  lemma {:induction false} AppendedBlockStable(pat: Pattern, body: string, text: string, eol: string)
    requires DotAll(pat) && ValidEol(eol) && LacksFrom(body, '<', 0) && !Contains(text, pat.marks.open)
    ensures var a := Append(text, eol, Framed(pat.marks, eol, body));
      ReplaceAll(pat, a, Framed(pat.marks, eol, body)) == a && ReplaceFirst(pat, a, Framed(pat.marks, eol, body)) == a
  {
    var lead := Lead(text, eol);
    var b := Framed(pat.marks, eol, body);
    var x := Append(text, eol, b);
    if NeedsSeparator(text) {
      EolAddsNoMark(text, eol, pat.marks.open);
    }
    assert x == lead + b + "" + "";
    LacksLead(body, pat.marks.close, '<');
    AbsentIff(body, pat.marks.close);
    BlockFound(pat, lead, eol, body, b, "", "", x);
    ReplaceAllAt(pat, x, b, |lead|, |b|);
    ReplaceFirstAt(pat, x, b, |lead|, |b|);
    FramedLayout(pat.marks, eol, body);
    ReplaceAllHead(pat, "", b);
    assert x[..|lead|] == lead && x[|lead| + |b|..] == "";
  }

  /** Every run leaves both marks and the detected line ending in place. */
  lemma {:induction false} UpsertKeeps(pat: Pattern, body: string, text: string)
    requires WellShaped(pat.marks) && BodyShape(body)
    ensures HasMarks(pat.marks, UpsertAll(pat, body, text)) && HasMarks(pat.marks, UpsertFirst(pat, body, text))
    ensures ChooseEol(UpsertAll(pat, body, text)) == ChooseEol(text)
    ensures ChooseEol(UpsertFirst(pat, body, text)) == ChooseEol(text)
  {
    var eol := ChooseEol(text);
    if HasMarks(pat.marks, text) {
      ReplaceAllKeepsMarks(pat, body, text, eol);
      ReplaceFirstKeepsMarks(pat, body, text, eol);
      ReplaceAllKeepsEol(pat, body, text);
      ReplaceFirstKeepsEol(pat, body, text);
    } else {
      AppendGivesMarks(pat.marks, body, text, eol);
      AppendKeepsEol(pat.marks, body, text);
    }
  }

  /**
   * Running the substituting upsert twice gives what running it once
   * gives, for every document in which an opening mark implies a closing one.
   */
  lemma {:induction false} UpsertAllIdempotent(pat: Pattern, body: string, text: string)
    requires DotAll(pat) && BodyShape(body)
    requires Contains(text, pat.marks.open) ==> Contains(text, pat.marks.close)
    ensures UpsertAll(pat, body, UpsertAll(pat, body, text)) == UpsertAll(pat, body, text)
  {
    var eol := ChooseEol(text);
    UpsertKeeps(pat, body, text);
    if HasMarks(pat.marks, text) {
      ReplaceAllIdempotent(pat, body, text, eol);
    } else {
      AppendedBlockStable(pat, body, text, eol);
    }
  }

  /** The same for the upsert that rewrites only the leftmost match. */
  lemma {:induction false} UpsertFirstIdempotent(pat: Pattern, body: string, text: string)
    requires DotAll(pat) && BodyShape(body)
    requires Contains(text, pat.marks.open) ==> Contains(text, pat.marks.close)
    ensures UpsertFirst(pat, body, UpsertFirst(pat, body, text)) == UpsertFirst(pat, body, text)
  {
    var eol := ChooseEol(text);
    UpsertKeeps(pat, body, text);
    if HasMarks(pat.marks, text) {
      ReplaceFirstIdempotent(pat, body, text, eol);
    } else {
      AppendedBlockStable(pat, body, text, eol);
    }
  }
}

=== FILE: wrappers.dfy ===
/** Values that may be absent, shared by the other modules. */
module Wrappers {

  /** A value that may be absent: a failed step, a search that found nothing. */
  datatype Option<+T> = None | Some(value: T)
}
